=== FILE: README.md ===
# Property-search agent: a Dafny model of the route's deterministic core

The agent route (`POST` in `app/api/agent/route.ts`) takes a user query and works in one of two ways.

- It classifies the query with a model call.
- A conversation is answered by the model.
- A property search runs a pipeline:
  - it expands the query into search phrases (with fixed templates when the model's reply does not parse);
  - it searches each phrase and keeps result URLs on eight allow-listed listing sites, up to twenty;
  - when a search fails before anything has been collected, it synthesizes three direct search URLs;
  - it drops repeated URLs and keeps the first ten;
  - it scrapes listings from those pages, up to twenty. It deduplicates them by title or by URL, and adds a placeholder when a fetched page leaves the list empty;
  - it analyses the first ten listings for profit, with a model call or a fixed estimate;
  - it keeps those that promise at least $15,000 and sorts them by profit, highest first, with a stable sort.

`calculatePropertyMetrics` in `lib/utils.ts` is modelled alongside.

Every model call, search request, page fetch and URL resolution is an input to the model. Each becomes an outcome datatype (`Reply`, `SearchOutcome`, `FetchOutcome`, `Chat`), or the function `resolve` standing for `new URL(href, base)`. The `World` datatype collects them, and the `i`-th search, fetch and analysis take the `i`-th outcome. What is left is pure sequence logic and real arithmetic. It covers:

- the location regex;
- `parseInt` without a radix, JavaScript truthiness and `x || default`;
- `encodeURIComponent`;
- the code-fence clean-up;
- the discovery, dedup and extraction folds;
- the analysis coercions;
- the filter and stable sort;
- the envelope the handler returns.

One module per stage:

| Module | Covers |
|---|---|
| `Options` | option values |
| `Strings` | string helpers |
| `Sequences` | `substring(0, n)`, `slice(0, n)` and prefix facts |
| `Json` | parsed JSON values, truthiness, `parseInt` |
| `Location` | the `(?:in\|at\|near)\s+([A-Za-z\s,]+)` regex, case-insensitive |
| `UriEncoding` | `encodeURIComponent` |
| `Fences` | the code-fence clean-up |
| `Expansion` | query expansion |
| `Discovery` | source discovery |
| `Dedup` | URL dedup |
| `Extraction` | listing extraction |
| `Analysis` | deal analysis |
| `Ranking` | filter and sort |
| `Metrics` | `calculatePropertyMetrics` |
| `Agent` | the handler |

Some of the route's behaviour is easy to misread. The model keeps it exactly as the route is written:

- **Listing dedup.** The route compares a held listing's *stored* title with the new listing's *full* title, ignoring case. The stored title is cut to 100 characters. So two listings with the same title of more than 100 characters are both kept when their URLs differ (`Extraction.LongTitlesNotDeduplicated`). Titles are not normalized in any other way.
- **URL dedup.** The `Set` compares the strings pushed into `searchResults` exactly. For a search hit that string is `new URL(href).href`, the WHATWG serialisation, so it is already a normalized absolute URL; the model takes it from the parsed anchor. The three fallback URLs are raw template strings. No further normalization happens before the `Set`.
- **Classification reply.** The route does not strip code fences from the classification reply. Such a reply fails to parse and ends in the error envelope.
- **Placeholder.** The placeholder is added whenever a fetched page leaves the list empty. The guard `uniqueUrls.length > 0` always holds inside the loop.

## Model

| member | source | states |
|---|---|---|
| Strings.Trim | app/api/agent/route.ts:237 | `trim` yields a slice of the input with only white space on either side of it; the slice begins and ends with a non-space character, and it is empty exactly when the text is all white space |
| Strings.DigitsOnly | app/api/agent/route.ts:256 | the filter yields only digits, and a character occurs in the result exactly when it is a digit of the input |
| Strings.DigitsOnlyChar | app/api/agent/route.ts:256 | one character passes the filter exactly when it is a digit |
| Strings.DigitsOnlyConcat | app/api/agent/route.ts:256 | the filter distributes over concatenation, so the result is the input's digits in their order, each as often as it occurs |
| Strings.DigitsOnlyIdempotent | app/api/agent/route.ts:306 | filtering an already filtered price again changes nothing |
| Strings.LowerEqual | app/api/agent/route.ts:272 | two strings are equal once lower-cased exactly when they have the same length and agree at each position up to the case of an ASCII letter |
| Strings.Contains | app/api/agent/route.ts:168 | `includes` holds exactly when the substring occurs at some position |
| Sequences.Take | app/api/agent/route.ts:278 | `substring(0, n)` is the prefix of length min(n, length) |
| Json.ParseIntReadsDigitPrefix | app/api/agent/route.ts:353-356 | `parseInt` of a digit run followed by a non-digit (e.g. "300,000") reads just the run, unless the run is "0" followed by x |
| Json.ParseInt | app/api/agent/route.ts:353-356 | `parseInt` reads NaN from any text without a decimal digit |
| Json.ParseSigned | app/api/agent/route.ts:353-356 | what follows the white space gives no number unless it holds a decimal digit |
| Json.ParseSignedOptional | app/api/agent/route.ts:353-356 | an optional `+` or `-` before a number that starts with a digit gives that number, negated after `-` |
| Json.ParseIntSkipsSpace | app/api/agent/route.ts:353-356 | leading white space does not change what `parseInt` reads |
| Json.ParseIntSigned | app/api/agent/route.ts:353-356 | `parseInt` of white space, an optional `+` or `-`, a decimal run and then a non-digit is the run's value, negated after `-` (e.g. " -350,000" gives -350), unless the run is "0" followed by x |
| Json.ParseIntOfDigits | app/api/agent/route.ts:306 | `parseInt` of a non-empty all-digit price is its decimal value |
| Json.ParseIntOfWord | app/api/agent/route.ts:353-356 | text starting with a character that is not space, sign or digit parses to NaN |
| Json.ParseIntOfEmpty | app/api/agent/route.ts:306 | `parseInt("")` is NaN |
| Json.NonNumbersParseToNaN | app/api/agent/route.ts:353-356 | the string forms of undefined, null, booleans and objects all parse to NaN |
| Json.Truthy | app/api/agent/route.ts:62 | the falsy values are exactly undefined, null, false, 0 and the empty string |
| Json.Coerce | app/api/agent/route.ts:353-356 | a JSON number is used as it is, even zero; a string goes through `parseInt` with the default; every other value gives the default |
| Location.ExtractLocation | app/api/agent/route.ts:119 | with no match the default is returned; otherwise the capture of the leftmost, greedy match, which is non-empty and made only of ASCII letters, white space and commas |
| Location.MatchExistsIffKeywordSpaceClass | app/api/agent/route.ts:119 | a match exists exactly when some "in", "at" or "near" (any case, no word boundary) is followed by a white-space character and a class character |
| UriEncoding.Utf8RoundTrip | app/api/agent/route.ts:182-184 | the UTF-8 bytes written for a character determine its code point |
| UriEncoding.EncodeCharRoundTrip | app/api/agent/route.ts:182-184 | decoding one encoded character gives it back, so no two characters share an encoding |
| UriEncoding.EncodeURIComponent | app/api/agent/route.ts:182-184 | the output uses only unreserved characters, `%` and upper-case hex digits, and is no shorter than the input |
| UriEncoding.EncodeConcat | app/api/agent/route.ts:182-184 | encoding distributes over concatenation |
| UriEncoding.EncodeUnreserved | app/api/agent/route.ts:182-184 | a string of unreserved characters is its own encoding |
| Fences.RemoveFences | app/api/agent/route.ts:114 | after the global replace of three backticks (and an optional newline), no three consecutive backticks remain |
| Fences.CleanReply | app/api/agent/route.ts:349 | the cleaned reply contains no code fence, whatever the model sent |
| Fences.RemoveFencesKeepsTickFree | app/api/agent/route.ts:114 | both replaces leave a reply without backticks unchanged |
| Fences.CleanReplyOfTickFree | app/api/agent/route.ts:349 | a reply without backticks is only trimmed |
| Expansion.FallbackQueries | app/api/agent/route.ts:119-131 | eight phrases; phrase i starts with template i and the rest is the location extracted from the query, with "Los Angeles" as default |
| Expansion.Characters | app/api/agent/route.ts:148 | iterating a string yields one single-character string per character, in order |
| Expansion.SearchPhrases | app/api/agent/route.ts:97-148 | the phrases searched are a prefix of `queries \|\| [query]`: all of it when it has at most six entries, else the first six. Nothing is searched, and the error escapes the pipeline, exactly when the expansion call throws, the reply parses to null, or a truthy `queries` is neither an array nor a string and so has no `slice` |
| Expansion.UnparseableSearchesTemplates | app/api/agent/route.ts:116-133 | an unparseable expansion reply searches exactly the first six templates in order, each followed by the same extracted location |
| Expansion.MissingQueriesSearchesQuery | app/api/agent/route.ts:133 | a parsed reply whose `queries` is falsy (absent, null, false, 0 or "") searches the user's query alone |
| Expansion.QueriesArraySearched | app/api/agent/route.ts:148 | a `queries` array is searched up to its sixth entry |
| Expansion.Candidates | app/api/agent/route.ts:97-133 | the candidate phrases: none (a throw) after a failed call, a reply that parses to null, or a truthy `queries` that is neither an array nor a string; the eight fallback phrases for an unparseable reply; `[query]` for a falsy `queries`; the array's items for an array; a string's characters for a truthy string |
| Expansion.ExpansionFailureIsError | app/api/agent/route.ts:97-148 | expansion throws out of the pipeline exactly when the call fails, the reply parses to null, or `queries` is a truthy value that is neither an array nor a string, whose missing `slice` throws |
| Discovery.Admitted | app/api/agent/route.ts:164-173 | reference filter: every kept anchor parsed, has an allow-listed host and is one of the page's anchors |
| Discovery.Collect | app/api/agent/route.ts:162-175 | walking one result page only appends, never beyond twenty, and only allow-listed URLs from that page |
| Discovery.CollectTakesAdmitted | app/api/agent/route.ts:162-175 | the walk appends the admissible anchors in document order, as many as fit under the cap of twenty |
| Discovery.FallbackUrls | app/api/agent/route.ts:181-185 | the failure path pushes exactly three direct URLs |
| Discovery.Step | app/api/agent/route.ts:160-186 | a failed search leaves a non-empty collection as it is and gives three fallback URLs to an empty one; a successful one only appends, never past twenty, allow-listed hits of its own page |
| Discovery.StepExtends | app/api/agent/route.ts:148-187 | a phrase never removes or changes collected URLs, keeps the count at most twenty, and on a non-empty collection adds only allow-listed hits of its own search |
| Discovery.StepAddsFallback | app/api/agent/route.ts:176-186 | fallback URLs appear only for a failed search on an empty collection, and are then the whole collection |
| Discovery.StepKeepsValid | app/api/agent/route.ts:137-187 | each phrase preserves the discovery invariant for the searches seen so far |
| Discovery.FirstStepValid | app/api/agent/route.ts:162-186 | the first phrase, whether its search succeeds or fails, establishes the discovery invariant from an empty collection |
| Discovery.LaterStepValid | app/api/agent/route.ts:162-186 | a phrase searched after something was collected keeps the invariant: its hits are allow-listed and the fallback block, if any, is untouched |
| Discovery.Discover | app/api/agent/route.ts:137-187 | after all phrases: at most twenty results; every hit is allow-listed and came from a successful search; fallback URLs, if any, are the first three and were built from the location of a phrase whose search failed |
| Dedup.Unique | app/api/agent/route.ts:192 | spreading a `Set`: no repeats, the same elements, ordered by first occurrence |
| Dedup.SpreadStep | app/api/agent/route.ts:192 | adding one more URL to the `Set` keeps it a repeat-free list of the same URLs in first-occurrence order: a new URL goes last, a repeated one changes nothing |
| Dedup.UniqueOfDistinct | app/api/agent/route.ts:192 | a list without repeats is unchanged |
| Dedup.UniqueUrls | app/api/agent/route.ts:192 | at most ten URLs, no repeats, all collected, in order of first occurrence; a collected URL is missing only when ten URLs that occur earlier fill the list |
| Extraction.FirstNonEmptyIsFirst | app/api/agent/route.ts:235-254 | the selector loop yields "" exactly when every text is blank, else the trimmed text of the first non-blank selector |
| Extraction.FirstFilledIsFirst | app/api/agent/route.ts:235-239 | the first non-empty of a list of trimmed texts is "" exactly when all are empty, else the text at a position before which every text is empty |
| Extraction.Placeholder | app/api/agent/route.ts:289-296 | the placeholder is priced "0", points at the page and is titled "Properties in " followed by the location the query names, or "your area" |
| Extraction.Record | app/api/agent/route.ts:277-282 | a stored listing keeps the full title as address and a title of at most 100 characters that begins it |
| Extraction.Candidate | app/api/agent/route.ts:235-269 | an element yields a listing exactly when its first non-empty title is non-empty and its digit-only price has more than four digits; the listing is that record, with the resolved link |
| Extraction.AdmitRejectsExactlyDuplicates | app/api/agent/route.ts:221-284 | below the cap, a candidate is rejected exactly when a held stored title equals its full title ignoring case, or a held URL equals its URL; at the cap nothing changes |
| Extraction.Admit | app/api/agent/route.ts:219-284 | an element adds at most one listing at the end, only below the cap, and only a record that is not a duplicate of a held one |
| Extraction.AppendKeepsValid | app/api/agent/route.ts:269-284 | appending a non-duplicate record below the cap keeps the extraction invariant |
| Extraction.AdmitKeepsValid | app/api/agent/route.ts:219-286 | each element keeps the extraction invariant |
| Extraction.AdmitAppendsRecord | app/api/agent/route.ts:276-283 | an element appends at most one listing, and only a record |
| Extraction.ScanPage | app/api/agent/route.ts:219-286 | scanning a page keeps every held listing, keeps the invariant, and adds only records |
| Extraction.FailedFetchKeepsList | app/api/agent/route.ts:297-299 | a failed fetch leaves the list unchanged |
| Extraction.ScrapeUrl | app/api/agent/route.ts:194-300 | a URL keeps every held listing; a failed fetch changes nothing, and a fetched page never leaves the list empty |
| Extraction.PlaceholderOnlyWhenEmpty | app/api/agent/route.ts:288-296 | a listing priced "0" is added only after a fetched page, only to an empty list, and is then the only listing |
| Extraction.ScrapeUrlKeepsValid | app/api/agent/route.ts:194-300 | each URL keeps the extraction invariant |
| Extraction.Scrape | app/api/agent/route.ts:194-300 | the listings: at most twenty, pairwise distinct URLs, no stored title equal ignoring case to a later full title, all records except possibly a first placeholder; once any page has been fetched the list is not empty |
| Extraction.LongTitlesNotDeduplicated | app/api/agent/route.ts:271-278 | two elements with the same title longer than 100 characters and different URLs are both kept |
| Extraction.ShorterTitleNotDuplicate | app/api/agent/route.ts:271-274 | a held listing whose stored title is shorter than the new full title, at another URL, never makes the new one a duplicate |
| Analysis.PurchasePrice | app/api/agent/route.ts:306 | the purchase price is the decimal value of the price's digits, zero when there are none |
| Analysis.ParsedDigitsValue | app/api/agent/route.ts:306 | `parseInt(d) \|\| 0` of a digit string is its decimal value |
| Analysis.Estimate | app/api/agent/route.ts:376-381 | the fixed estimate has after-repair value 1.2p, repairs 0.1p, market operating value 0.036p and profit exactly 0.024p, for purchase price p |
| Analysis.Analyse | app/api/agent/route.ts:305-391 | the listing is kept; a failed call or unparseable/null reply gives the estimate; a parsed reply's profit is after-repair value minus price, repairs, market operating value and additional costs as coerced |
| Analysis.ModelFieldDefaults | app/api/agent/route.ts:353-356 | numeric fields are used as given; missing ones default to 0 (after-repair value, repairs), 3% of the after-repair value (market operating value) and 4% of the price (additional costs) |
| Analysis.CostDefaults | app/api/agent/route.ts:353-356 | each cost field's coercion: a number is used as given, a missing field takes its own default (0, 0, 3% of the after-repair value, 4% of the price) |
| Analysis.ProfitIgnoresModel | app/api/agent/route.ts:353-359 | the same reply with any other claimed profit gives the same after-repair value, repairs, market operating value and profit |
| Analysis.EmptyReplyProfit | app/api/agent/route.ts:347-359 | a parsed reply none of whose four cost fields is usable (absent, null, a boolean, an object, or a string reading NaN or zero) values the deal at −1.04 times the price |
| Analysis.AnalyseAll | app/api/agent/route.ts:304-391 | every listing gets exactly one analysed entry, in its own position, whether its call failed or not: a failed call or an unreadable reply gives the fixed estimate, a parsed reply the model's fields with the listing's own purchase price and a profit recomputed as after-repair value less price, repairs, market operating value and additional costs |
| Ranking.Profitable | app/api/agent/route.ts:396 | the filter keeps exactly the listings with profit at least 15000 |
| Ranking.ProfitableKeepsOrder | app/api/agent/route.ts:396 | for each profit at or above the bar the filter keeps all its listings in order, and none for other profits |
| Ranking.Insert | app/api/agent/route.ts:397 | one insertion adds exactly the new listing to the multiset |
| Ranking.InsertKeepsSorted | app/api/agent/route.ts:397 | inserting into a list sorted by profit, highest first, keeps it sorted |
| Ranking.HeadBoundsInsert | app/api/agent/route.ts:397 | a head of at least the inserted listing's profit bounds every listing of the tail after the insertion |
| Ranking.InsertKeepsTies | app/api/agent/route.ts:397 | the inserted listing goes after those of equal profit |
| Ranking.Sort | app/api/agent/route.ts:397 | the sort is a permutation, non-increasing by profit |
| Ranking.SortIsStable | app/api/agent/route.ts:397 | listings of equal profit keep their relative order |
| Ranking.Rank | app/api/agent/route.ts:395-397 | sorted highest first, no longer than its input, exactly the listings with profit at least 15000, a permutation of the filtered list |
| Ranking.RankKeepsTies | app/api/agent/route.ts:395-397 | per profit value, the result holds exactly the input's listings of that profit in input order when it clears the bar, none otherwise |
| Ranking.EstimateClearsBar | app/api/agent/route.ts:376-396 | a listing valued by the fixed estimate is reported exactly when its purchase price is at least 625000 |
| Metrics.Divide | lib/utils.ts:12 | division yields a finite quotient exactly for a non-zero divisor; by zero, an infinity of the dividend's sign or NaN for 0/0 |
| Metrics.ScaleBy | lib/utils.ts:12 | multiplying by a positive constant keeps finiteness and infinities |
| Metrics.CalculatePropertyMetrics | lib/utils.ts:5-20 | profit plus price plus repairs equals the after-repair value; roi times the investment is 100 times the profit when the investment is non-zero, else ±Infinity or NaN; mov is 3% of the after-repair value |
| Metrics.RoiSign | lib/utils.ts:10-12 | for a positive investment roi has the sign of the profit and is zero exactly at break-even |
| Metrics.MovIndependent | lib/utils.ts:13 | mov does not depend on price or repairs |
| Metrics.ProfitExcludesMov | lib/utils.ts:10-11 | raising the after-repair value raises the profit by the same amount; mov is not deducted |
| Agent.Routing | app/api/agent/route.ts:60-62 | the conversation branch exactly when `isPropertySearch` is falsy and `type` is "conversation"; an error exactly when the reply fails, does not parse or is null; the search otherwise |
| Agent.IsConversation | app/api/agent/route.ts:62 | the conversation branch is taken exactly when `isPropertySearch` is absent, null, false, 0 or "" and `type` is the string "conversation" |
| Agent.Listings | app/api/agent/route.ts:133-300 | the scraped listings exist exactly when expansion does not throw, number at most twenty, and keep the held-list invariant: pairwise distinct URLs, no stored title equal, ignoring case, to the full title of a later listing, and every listing a scraped record except that the first may be the placeholder; when any scraped URL's page was fetched there is at least one listing |
| Agent.Properties | app/api/agent/route.ts:302-397 | at most ten results, sorted by profit, each at least 15000 and each one of the first ten scraped listings; every analysed listing of profit at least 15000 is reported, as often as it was analysed; listings of equal profit keep their analysis order |
| Agent.Handle | app/api/agent/route.ts:30-436 | an error without an API key or readable body; a conversation reply exactly on the conversation route with a successful call; a search reply exactly when classification, pipeline and summary succeed, echoing the query and the ranked properties |
| Agent.UnclassifiedIsError | app/api/agent/route.ts:60 | a classification reply that fails, does not parse or is null ends in the error envelope |
| Agent.ConversationIgnoresPipeline | app/api/agent/route.ts:62-83 | a conversation answer depends only on the classification and conversation replies |
| Agent.SearchResponseShape | app/api/agent/route.ts:421-427 | a search answer echoes the query and holds at most ten listings, highest profit first, each at least 15000 |

## Left out

- Groq chat calls, axios requests, cheerio selector matching and `JSON.parse`. Their results are abstract outcomes. Which elements the eight container selectors match, in which order, and what each title or price selector's first match contains are all inputs.
- The text of the conversation reply and of the final summary (app/api/agent/route.ts:64-82, 400-419). These are free model output. Only their success or failure is modelled, and a `null` content is not distinguished from a string.
- The WHATWG URL parser. `new URL(href)` during discovery is an input: the anchor's parsed host name and `href`, or none. `new URL(link, base)` is the oracle `resolve`.
- Timeouts, request headers, user agents and console logging.
- IEEE-754 doubles. Amounts are exact reals, so rounding at boundaries such as the 625000 price is not modelled. The huge digit strings for which `parseInt` yields Infinity are not modelled either.
- Strings.DigitsOnly: its own contract says which characters the result holds; their order and count are stated by `Strings.DigitsOnlyConcat` and `Strings.DigitsOnlyChar`.
- Metrics.CalculatePropertyMetrics: does not distinguish −0 from +0 as a divisor, so `x / -0` is given the sign of `x` alone.
- Unicode case mapping. `toLowerCase` is modelled on ASCII letters only.
- UTF-16. Strings are sequences of Unicode scalar values, so a lone surrogate cannot occur in `encodeURIComponent`.
- Values the route does not expect:
  - a non-string `query` or non-string phrases in `queries`;
  - arrays in analysis fields (where `parseInt(String([5]))` would read 5);
  - a classification reply that parses to a non-object (modelled as a parsed reply whose fields are undefined).
- Fences.CleanReply: the route applies the clean-up before `JSON.parse`, which is not modelled, so the clean-up is proved about on its own and not connected to the `Reply` outcomes.
- Discovery.FallbackUrls: states the count and kind of the three URLs, not their exact text.
- The error messages in the error envelope, and the HTTP status.
- `encodeTextForTTS` and `speakText` in lib/utils.ts, which are a thin wrapper and browser audio playback.
- The React components and pages, which are presentation only.

=== FILE: agent.dfy ===
/** The `POST` handler of the agent route, with every model call, search request and page fetch
    replaced by its outcome. A request is answered with an error envelope when the API key is not
    configured, the body is unreadable, or any call whose failure is not caught fails; otherwise it
    is classified as a conversation, answered by the model, or as a property search, answered with
    the ranked listings of the whole pipeline. */
module Agent {
  import opened Options
  import opened Strings
  import opened Sequences
  import opened Json
  import opened Expansion
  import opened Discovery
  import opened Dedup
  import opened Extraction
  import opened Analysis
  import opened Ranking

  /** How many scraped listings are analysed. */
  const MaxAnalysed: nat := 10

  /** The request body: unreadable (not JSON, or `null`), or an object whose `query` is a string. */
  datatype Request = Unreadable | QueryText(query: string)

  /** The two fields of the classification reply the route reads (`Undefined` when absent). */
  datatype Intent = Intent(isPropertySearch: Value, kind: Value)

  /** A free-text model call: it threw, or it said something. */
  datatype Chat = ChatFailed | Said(text: string)

  datatype Response =
    | ErrorEnvelope
    | ConversationEnvelope(reply: string)
    | SearchEnvelope(reply: string, properties: seq<Analysed>, query: string)

  /** Everything outside the route's own logic: the outcome of each model call, of the `i`-th
      search request, of the `i`-th page fetch and of the `i`-th listing analysis, and the URL
      resolver `new URL(href, base)`. */
  datatype World = World(
    intent: Reply<Intent>,
    conversation: Chat,
    expansion: Reply<QueriesField>,
    search: nat -> SearchOutcome,
    fetch: nat -> FetchOutcome,
    resolve: (string, string) -> Option<string>,
    analysis: nat -> Reply<Fields>,
    summary: Chat)

  /** `process.env.GROQ_API_KEY` is set and not empty. */
  predicate Configured(apiKey: Option<string>) {
    apiKey.Some? && apiKey.value != ""
  }

  /** The conversation branch is taken when `isPropertySearch` is falsy and `type` is exactly the
      string "conversation": any flag other than absent, `null`, `false`, `0` or `""` sends the
      query to the search. */
  function IsConversation(i: Intent): (r: bool)
    ensures r <==> && (i.isPropertySearch == Undefined || i.isPropertySearch == Null
                       || i.isPropertySearch == Bool(false) || i.isPropertySearch == Num(0.0)
                       || i.isPropertySearch == Str(""))
                   && i.kind == Str("conversation")
  {
    !Truthy(i.isPropertySearch) && i.kind == Str("conversation")
  }

  datatype Route = Failed | Converse | SearchFor

  /** The classification: an exception when the call fails, its reply does not parse or parses to
      `null`; the conversation branch; or, for every other parsed reply, the search. */
  function Routing(intent: Reply<Intent>): (r: Route)
    ensures r == Failed <==> !intent.Parsed?
    ensures r == Converse <==> intent.Parsed? && IsConversation(intent.value)
    ensures r == SearchFor <==> intent.Parsed? && !IsConversation(intent.value)
  {
    match intent
    case Parsed(i) => if IsConversation(i) then Converse else SearchFor
    case _ => Failed
  }

  /** The searches run: the `i`-th phrase with the outcome of the `i`-th search request. */
  function Searches(phrases: seq<string>, outcomes: nat -> SearchOutcome): (r: seq<Search>)
    ensures |r| == |phrases|
    ensures forall i :: 0 <= i < |r| ==> r[i] == Search(phrases[i], outcomes(i))
  {
    seq(|phrases|, i requires 0 <= i < |phrases| => Search(phrases[i], outcomes(i)))
  }

  /** The fetches made: the `i`-th URL with the outcome of the `i`-th fetch. */
  function Fetches(urls: seq<string>, outcomes: nat -> FetchOutcome): (r: seq<Fetch>)
    ensures |r| == |urls|
    ensures forall i :: 0 <= i < |r| ==> r[i] == Fetch(urls[i], outcomes(i))
  {
    seq(|urls|, i requires 0 <= i < |urls| => Fetch(urls[i], outcomes(i)))
  }

  /** `properties` for a query: expansion, discovery, URL dedup and extraction; `None` when the
      expansion step throws. */
  function Listings(query: string, w: World): (r: Option<seq<Listing>>)
    ensures r.None? <==> SearchPhrases(query, w.expansion).None?
    ensures r.Some? ==> |r.value| <= MaxListings && Extraction.Valid(r.value)
    ensures r.Some? ==> var urls := ScrapedUrls(SearchPhrases(query, w.expansion).value, w);
                        (exists k :: 0 <= k < |urls| && w.fetch(k).Fetched?) ==> |r.value| > 0
  {
    match SearchPhrases(query, w.expansion)
    case None => None
    case Some(phrases) =>
      var urls := ScrapedUrls(phrases, w);
      var fetches := Fetches(urls, w.fetch);
      assert (exists k :: 0 <= k < |urls| && w.fetch(k).Fetched?) ==>
             exists k :: 0 <= k < |fetches| && fetches[k].outcome.Fetched?;
      Some(Scrape(fetches, query, w.resolve))
  }

  /** The URLs scraped for the search phrases: discovery, then URL dedup. */
  function ScrapedUrls(phrases: seq<string>, w: World): seq<string> {
    UniqueUrls(SearchResults(Discover(Searches(phrases, w.search))))
  }

  /** The analysed listings are the given ones, in order. */
  lemma AnalysedListings(ls: seq<Listing>, replies: nat -> Reply<Fields>, x: Analysed)
    requires x in AnalyseAll(ls, replies)
    ensures x.listing in ls
  {
    var a := AnalyseAll(ls, replies);
    var j :| 0 <= j < |a| && a[j] == x;
    assert x.listing == ls[j];
  }

  /** The first ten scraped listings, analysed. */
  function FirstAnalysed(ls: seq<Listing>, w: World): seq<Analysed> {
    AnalyseAll(Take(ls, MaxAnalysed), w.analysis)
  }

  /** `profitableProperties` for a query: at most ten listings, highest profit first, each clearing
      the bar and each one of the first ten scraped listings. Every analysed listing that clears
      the bar is reported, as often as it was analysed, and listings of equal profit keep the order
      analysis gave them. */
  function Properties(query: string, w: World): (r: Option<seq<Analysed>>)
    ensures r.None? <==> Listings(query, w).None?
    ensures r.Some? ==> && |r.value| <= MaxAnalysed && Sorted(r.value)
                        && forall i :: 0 <= i < |r.value| ==>
                             r.value[i].profit >= MinProfit
                             && r.value[i].listing in Take(Listings(query, w).value, MaxAnalysed)
    ensures r.Some? ==> var a := FirstAnalysed(Listings(query, w).value, w);
                        && (forall i :: 0 <= i < |a| && a[i].profit >= MinProfit ==> a[i] in r.value)
                        && multiset(r.value) == multiset(Profitable(a))
                        && forall v :: WithProfit(r.value, v) == if v >= MinProfit then WithProfit(a, v) else []
  {
    match Listings(query, w)
    case None => None
    case Some(ls) =>
      var first := Take(ls, MaxAnalysed);
      var analysed := FirstAnalysed(ls, w);
      var r := Rank(analysed);
      forall x | x in analysed ensures x.listing in first {
        AnalysedListings(first, w.analysis, x);
      }
      forall v ensures WithProfit(r, v) == if v >= MinProfit then WithProfit(analysed, v) else [] {
        RankKeepsTies(analysed, v);
      }
      Some(r)
  }

  /** `POST`. */
  function Handle(apiKey: Option<string>, req: Request, w: World): (r: Response)
    ensures !Configured(apiKey) || req.Unreadable? ==> r.ErrorEnvelope?
    ensures r.ConversationEnvelope? <==>
              Configured(apiKey) && req.QueryText? && Routing(w.intent) == Converse && w.conversation.Said?
    ensures r.ConversationEnvelope? ==> r.reply == w.conversation.text
    ensures r.SearchEnvelope? <==>
              && Configured(apiKey) && req.QueryText? && Routing(w.intent) == SearchFor
              && Properties(req.query, w).Some? && w.summary.Said?
    ensures r.SearchEnvelope? ==>
              r.query == req.query && r.reply == w.summary.text && r.properties == Properties(req.query, w).value
  {
    if !Configured(apiKey) then ErrorEnvelope
    else match req
      case Unreadable => ErrorEnvelope
      case QueryText(query) =>
        match Routing(w.intent)
        case Failed => ErrorEnvelope
        case Converse =>
          (match w.conversation
           case ChatFailed => ErrorEnvelope
           case Said(text) => ConversationEnvelope(text))
        case SearchFor =>
          match Properties(query, w)
          case None => ErrorEnvelope
          case Some(properties) =>
            match w.summary
            case ChatFailed => ErrorEnvelope
            case Said(text) => SearchEnvelope(text, properties, query)
  }

  /** A classification reply that does not parse, or parses to `null`, ends in the error envelope. */
  lemma UnclassifiedIsError(apiKey: Option<string>, req: Request, w: World)
    requires !w.intent.Parsed?
    ensures Handle(apiKey, req, w).ErrorEnvelope?
  {
  }

  /** A conversation is answered from the classification and the conversation reply alone: no
      search, fetch or analysis outcome can change it. */
  lemma ConversationIgnoresPipeline(apiKey: Option<string>, req: Request, w1: World, w2: World)
    requires w1.intent == w2.intent && w1.conversation == w2.conversation
    requires Routing(w1.intent) == Converse
    ensures Handle(apiKey, req, w1) == Handle(apiKey, req, w2)
  {
  }

  /** A search answer echoes the query and reports at most ten listings, highest profit first,
      each promising at least $15,000. */
  lemma SearchResponseShape(apiKey: Option<string>, req: Request, w: World)
    requires Handle(apiKey, req, w).SearchEnvelope?
    ensures var r := Handle(apiKey, req, w);
            && r.query == req.query && |r.properties| <= MaxAnalysed && Sorted(r.properties)
            && forall i :: 0 <= i < |r.properties| ==> r.properties[i].profit >= MinProfit
  {
  }
}

=== FILE: analysis.dfy ===
/** Deal analysis of one listing. The purchase price is the listing's digits read as a decimal
    number. A parsed model reply supplies the after-repair value, repair costs, market operating
    value and additional costs, each coerced to a number with its own default; the profit is always
    recomputed from them, never taken from the reply. When the model call fails or its reply does
    not parse, a fixed estimate is used instead. Amounts are real numbers. */
module Analysis {
  import opened Options
  import opened Strings
  import opened Json
  import opened Extraction

  /** The fields of a parsed analysis reply the route reads (`Undefined` when absent). */
  datatype Fields = Fields(arv: Value, repairs: Value, mov: Value, additionalCosts: Value, profit: Value)

  /** `details`: the model's reply with the purchase price and the additional costs actually used,
      or the note that the fixed estimate was used. */
  datatype Details = ModelDetails(fields: Fields, purchasePrice: real, additionalCosts: real) | Estimated

  datatype Analysed = Analysed(listing: Listing, arv: real, repairs: real, mov: real, profit: real,
                               details: Details)

  /** `parseInt(price.replace(/[^0-9]/g, '')) || 0`: the digits of the price as a decimal number,
      zero when there are none. */
  function PurchasePrice(price: string): (r: real)
    ensures r == Decimal(DigitsOnly(price)) as real
    ensures r >= 0.0
  {
    var digits := DigitsOnly(price);
    ParsedDigitsValue(digits);
    OrDefault(ParseInt(digits), 0.0)
  }

  /** A digit string, through `parseInt` and `|| 0`, is its decimal value; the empty one is zero. */
  lemma ParsedDigitsValue(d: string)
    requires AllDigits(d)
    ensures OrDefault(ParseInt(d), 0.0) == Decimal(d) as real
  {
    if |d| > 0 {
      ParseIntOfDigits(d);
    } else {
      ParseIntOfEmpty();
    }
  }

  /** A field the coercion treats as missing: not a number, and a string only when `parseInt` reads
      NaN or zero from it. */
  predicate Missing(v: Value) {
    !v.Num? && (v.Str? ==> ParseInt(v.s) == None || ParseInt(v.s) == Some(0))
  }

  /** The estimate used without a model reply: after-repair value 1.2 times the price, repairs 0.1
      times it, market operating value 3% of the after-repair value, additional costs 4% of the
      price. Whatever the price, the profit comes out at exactly 2.4% of it. */
  function Estimate(l: Listing): (a: Analysed)
    ensures a.listing == l && a.details == Estimated
    ensures var p := PurchasePrice(l.price);
            && a.arv == 1.2 * p && a.repairs == 0.1 * p && a.mov == 0.036 * p
            && a.profit == 0.024 * p
  {
    var p := PurchasePrice(l.price);
    var arv := p * 1.2;
    var repairs := p * 0.1;
    var mov := arv * 0.03;
    var additionalCosts := p * 0.04;
    Analysed(l, arv, repairs, mov, arv - p - repairs - mov - additionalCosts, Estimated)
  }

  /** The four figures a parsed reply supplies, after coercion. */
  datatype Costs = Costs(arv: real, repairs: real, mov: real, additionalCosts: real)

  /** The coercion of the four cost fields, for purchase price `p`. It depends on those fields
      alone, not on the rest of the reply. */
  function ModelCosts(arv: Value, repairs: Value, mov: Value, additionalCosts: Value, p: real): Costs {
    var a := Coerce(arv, 0.0);
    Costs(a, Coerce(repairs, 0.0), Coerce(mov, a * 0.03), Coerce(additionalCosts, p * 0.04))
  }

  /** The analysis of one listing from the reply of its model call. */
  function Analyse(l: Listing, reply: Reply<Fields>): (a: Analysed)
    ensures a.listing == l
    ensures !reply.Parsed? ==> a == Estimate(l)
    ensures reply.Parsed? ==> a.details.ModelDetails? && a.details.fields == reply.value
                              && a.details.purchasePrice == PurchasePrice(l.price)
                              && a.profit == a.arv - a.details.purchasePrice - a.repairs - a.mov
                                             - a.details.additionalCosts
  {
    match reply
    case Parsed(f) =>
      var p := PurchasePrice(l.price);
      var c := ModelCosts(f.arv, f.repairs, f.mov, f.additionalCosts, p);
      Analysed(l, c.arv, c.repairs, c.mov, c.arv - p - c.repairs - c.mov - c.additionalCosts,
               ModelDetails(f, p, c.additionalCosts))
    case _ => Estimate(l)
  }

  /** A number in a field is used as it is, even zero; a missing field takes its default:
      nothing for the after-repair value and repairs, 3% of the after-repair value for the market
      operating value, 4% of the price for the additional costs. */
  lemma ModelFieldDefaults(l: Listing, f: Fields)
    ensures var a := Analyse(l, Parsed(f));
            && (f.arv.Num? ==> a.arv == f.arv.n) && (Missing(f.arv) ==> a.arv == 0.0)
            && (f.repairs.Num? ==> a.repairs == f.repairs.n) && (Missing(f.repairs) ==> a.repairs == 0.0)
            && (f.mov.Num? ==> a.mov == f.mov.n) && (Missing(f.mov) ==> a.mov == 0.03 * a.arv)
            && (f.additionalCosts.Num? ==> a.details.additionalCosts == f.additionalCosts.n)
            && (Missing(f.additionalCosts) ==> a.details.additionalCosts == 0.04 * PurchasePrice(l.price))
  {
    ParsedCosts(l, f);
    CostDefaults(f.arv, f.repairs, f.mov, f.additionalCosts, PurchasePrice(l.price));
  }

  /** The figures of a parsed reply are the coerced cost fields. */
  lemma ParsedCosts(l: Listing, f: Fields)
    ensures var a := Analyse(l, Parsed(f));
            var c := ModelCosts(f.arv, f.repairs, f.mov, f.additionalCosts, PurchasePrice(l.price));
            a.arv == c.arv && a.repairs == c.repairs && a.mov == c.mov
            && a.details.additionalCosts == c.additionalCosts
  {
  }

  lemma CostDefaults(arv: Value, repairs: Value, mov: Value, additionalCosts: Value, p: real)
    ensures var c := ModelCosts(arv, repairs, mov, additionalCosts, p);
            && (arv.Num? ==> c.arv == arv.n) && (Missing(arv) ==> c.arv == 0.0)
            && (repairs.Num? ==> c.repairs == repairs.n) && (Missing(repairs) ==> c.repairs == 0.0)
            && (mov.Num? ==> c.mov == mov.n) && (Missing(mov) ==> c.mov == 0.03 * c.arv)
            && (additionalCosts.Num? ==> c.additionalCosts == additionalCosts.n)
            && (Missing(additionalCosts) ==> c.additionalCosts == 0.04 * p)
  {
  }

  /** The model's own `profit` field has no effect: whatever profit a reply claims, the analysis
      figures are those of the same reply claiming any other. */
  lemma ProfitIgnoresModel(l: Listing, f: Fields, claimed: Value)
    ensures var a, b := Analyse(l, Parsed(f)), Analyse(l, Parsed(f.(profit := claimed)));
            a.arv == b.arv && a.repairs == b.repairs && a.mov == b.mov && a.profit == b.profit
  {
    var g := f.(profit := claimed);
    assert g.arv == f.arv && g.repairs == f.repairs && g.mov == f.mov
           && g.additionalCosts == f.additionalCosts;
    ParsedCosts(l, f);
    ParsedCosts(l, g);
  }

  /** A reply none of whose four cost fields is usable (each absent, null, a boolean, an object, or a
      string reading NaN or zero) values the deal at minus 1.04 times the price. */
  lemma EmptyReplyProfit(l: Listing, f: Fields)
    requires Missing(f.arv) && Missing(f.repairs) && Missing(f.mov) && Missing(f.additionalCosts)
    ensures Analyse(l, Parsed(f)).profit == -1.04 * PurchasePrice(l.price)
  {
    ModelFieldDefaults(l, f);
  }

  /** The listings analysed, the `i`-th with the reply of the `i`-th analysis call. Each call is
      caught on its own, so every listing gets exactly one entry, in its place, whether its call
      failed or not. */
  function AnalyseAll(ls: seq<Listing>, replies: nat -> Reply<Fields>): (r: seq<Analysed>)
    ensures |r| == |ls|
    ensures forall i :: 0 <= i < |ls| ==> r[i].listing == ls[i]
    ensures forall i :: 0 <= i < |ls| && !replies(i).Parsed? ==> r[i] == Estimate(ls[i])
    ensures forall i :: 0 <= i < |ls| && replies(i).Parsed? ==>
              && r[i].details.ModelDetails? && r[i].details.fields == replies(i).value
              && r[i].details.purchasePrice == PurchasePrice(ls[i].price)
              && r[i].profit == r[i].arv - r[i].details.purchasePrice - r[i].repairs - r[i].mov
                                - r[i].details.additionalCosts
  {
    var r := seq(|ls|, i requires 0 <= i < |ls| => Analyse(ls[i], replies(i)));
    assert forall i :: 0 <= i < |ls| ==> r[i] == Analyse(ls[i], replies(i));
    r
  }
}

=== FILE: dedup.dfy ===
/** `[...new Set(searchResults)].slice(0, 10)`: the collected URLs with repeats dropped, each kept at
    its first occurrence (a `Set` iterates in insertion order), then cut to the first ten. */
module Dedup {
  import opened Strings
  import opened Sequences

  /** How many distinct URLs are scraped. */
  const MaxUrls: nat := 10

  predicate NoDuplicates<T(==)>(s: seq<T>) {
    forall i, j :: 0 <= i < j < |s| ==> s[i] != s[j]
  }

  /** Where `x` first occurs in `s`. */
  function FirstIndex<T(==)>(s: seq<T>, x: T): (r: nat)
    requires x in s
    ensures r < |s| && s[r] == x
    ensures forall i :: 0 <= i < r ==> s[i] != x
  {
    if s[0] == x then 0 else 1 + FirstIndex(s[1..], x)
  }

  /** Appending never moves the first occurrence of an element already present. */
  lemma FirstIndexOfPrefix<T>(s: seq<T>, x: T, y: T)
    requires x in s
    ensures FirstIndex(s + [y], x) == FirstIndex(s, x)
  {
    var t := s + [y];
    assert forall i :: 0 <= i < |s| ==> t[i] == s[i];
  }

  /** What the spread of `s` is: no repeats, exactly the elements of `s`, ordered by first
      occurrence in `s`. */
  ghost predicate IsSpread<T>(s: seq<T>, r: seq<T>) {
    && NoDuplicates(r)
    && (forall i :: 0 <= i < |r| ==> r[i] in s)
    && (forall i :: 0 <= i < |s| ==> s[i] in r)
    && (forall i, j :: 0 <= i < j < |r| ==> FirstIndex(s, r[i]) < FirstIndex(s, r[j]))
  }

  /** Adding one more element to the input extends its spread by that element, unless it is a
      repeat. */
  lemma SpreadStep<T>(front: seq<T>, x: T, previous: seq<T>)
    requires IsSpread(front, previous)
    ensures IsSpread(front + [x], if x in previous then previous else previous + [x])
  {
    var s := front + [x];
    assert forall i :: 0 <= i < |front| ==> s[i] == front[i];
    forall y | y in previous ensures FirstIndex(s, y) == FirstIndex(front, y) {
      FirstIndexOfPrefix(front, y, x);
    }
    if x in previous {
      SpreadRepeat(front, x, previous);
    } else {
      SpreadNew(front, x, previous);
    }
  }

  lemma SpreadRepeat<T>(front: seq<T>, x: T, previous: seq<T>)
    requires IsSpread(front, previous) && x in previous
    requires forall y | y in previous :: FirstIndex(front + [x], y) == FirstIndex(front, y)
    ensures IsSpread(front + [x], previous)
  {
    var s := front + [x];
    forall i | 0 <= i < |previous| ensures previous[i] in s {
      var k :| 0 <= k < |front| && front[k] == previous[i];
      assert s[k] == front[k];
    }
    forall i | 0 <= i < |s| ensures s[i] in previous {
      if i < |front| {
        assert s[i] == front[i];
      }
    }
  }

  lemma SpreadNew<T>(front: seq<T>, x: T, previous: seq<T>)
    requires IsSpread(front, previous) && x !in previous
    requires forall y | y in previous :: FirstIndex(front + [x], y) == FirstIndex(front, y)
    ensures IsSpread(front + [x], previous + [x])
  {
    var s := front + [x];
    var r := previous + [x];
    assert x !in front;
    assert FirstIndex(s, x) == |front|;
    assert forall i :: 0 <= i < |previous| ==> r[i] == previous[i];
    forall i | 0 <= i < |r| ensures r[i] in s {
      if i < |previous| {
        var k :| 0 <= k < |front| && front[k] == previous[i];
        assert s[k] == front[k];
      }
    }
    forall i | 0 <= i < |s| ensures s[i] in r {
      if i < |front| {
        assert s[i] == front[i] && front[i] in previous;
      }
    }
    forall i, j | 0 <= i < j < |r| ensures FirstIndex(s, r[i]) < FirstIndex(s, r[j]) {
      assert r[i] in previous;
      if j < |previous| {
        assert r[j] in previous;
      }
    }
  }

  /** The spread of a `Set` built from `s`: every element of `s` once, ordered by where it first
      occurs in `s`. */
  function Unique<T(==)>(s: seq<T>): (r: seq<T>)
    ensures NoDuplicates(r)
    ensures forall i :: 0 <= i < |r| ==> r[i] in s
    ensures forall i :: 0 <= i < |s| ==> s[i] in r
    ensures forall i, j :: 0 <= i < j < |r| ==> FirstIndex(s, r[i]) < FirstIndex(s, r[j])
  {
    if |s| == 0 then []
    else
      var front := s[..|s| - 1];
      var x := s[|s| - 1];
      assert front + [x] == s;
      var previous := Unique(front);
      SpreadStep(front, x, previous);
      if x in previous then previous else previous + [x]
  }

  /** A sequence without repeats is its own `Set` spread. */
  lemma {:induction false} UniqueOfDistinct<T>(s: seq<T>)
    requires NoDuplicates(s)
    ensures Unique(s) == s
  {
    if |s| > 0 {
      var front := s[..|s| - 1];
      var x := s[|s| - 1];
      assert NoDuplicates(front);
      UniqueOfDistinct(front);
      assert x !in front by {
        assert forall i :: 0 <= i < |front| ==> front[i] == s[i];
      }
      assert Unique(s) == Unique(front) + [x];
      assert front + [x] == s;
    }
  }

  /** `uniqueUrls`: at most ten distinct URLs, all from `results`, in order of first occurrence;
      a URL of `results` is left out only when ten URLs that occur earlier fill the list. */
  function UniqueUrls(results: seq<string>): (r: seq<string>)
    ensures |r| <= MaxUrls
    ensures NoDuplicates(r)
    ensures forall i :: 0 <= i < |r| ==> r[i] in results
    ensures forall i, j :: 0 <= i < j < |r| ==> FirstIndex(results, r[i]) < FirstIndex(results, r[j])
    ensures forall k :: 0 <= k < |results| && results[k] !in r ==>
              |r| == MaxUrls && forall j :: 0 <= j < |r| ==> FirstIndex(results, r[j]) < FirstIndex(results, results[k])
  {
    var u := Unique(results);
    var r := Take(u, MaxUrls);
    assert forall i :: 0 <= i < |r| ==> r[i] == u[i];
    forall k | 0 <= k < |results| && results[k] !in r
      ensures |r| == MaxUrls && forall j :: 0 <= j < |r| ==> FirstIndex(results, r[j]) < FirstIndex(results, results[k])
    {
      var m :| 0 <= m < |u| && u[m] == results[k];
      assert m >= |r|;
    }
    r
  }
}

=== FILE: discovery.dfy ===
/** Source discovery: each searched phrase either fails or yields the result anchors of a search
    page. An anchor whose URL parses and whose host name contains one of eight listing sites is
    collected, until twenty results are held. When a search fails while nothing has been collected
    yet, three direct search URLs built from the phrase's location are collected instead. */
module Discovery {
  import opened Options
  import opened Strings
  import opened Sequences
  import opened Location
  import opened UriEncoding
  import opened Expansion

  /** The allow-listed listing sites, matched as substrings of a result's host name. */
  const Sites: seq<string> := [
    "zillow.com", "realtor.com", "redfin.com", "trulia.com",
    "homes.com", "apartments.com", "rent.com", "apartmentfinder.com"
  ]

  /** The cap on collected results, checked before every push. */
  const MaxResults: nat := 20

  /** A result anchor whose `href` parsed as a URL. */
  datatype Url = Url(hostname: string, href: string)

  /** What one search request gave: an error, or the anchors of the result page in document order
      (`None` for an anchor with no `href`, or one that does not parse as a URL). */
  datatype SearchOutcome = SearchFailed | SearchOk(anchors: seq<Option<Url>>)

  datatype Search = Search(phrase: string, outcome: SearchOutcome)

  /** A collected result: a search hit, or one of the direct URLs of the failure path. */
  datatype Found = Listed(url: Url) | Fallback(address: string)
  {
    function Href(): string {
      match this
      case Listed(u) => u.href
      case Fallback(a) => a
    }
  }

  predicate AllowedHost(hostname: string) {
    exists i :: 0 <= i < |Sites| && Contains(hostname, Sites[i])
  }

  /** The anchor is collected when it parsed and its host is allow-listed. */
  predicate Admissible(a: Option<Url>) {
    a.Some? && AllowedHost(a.value.hostname)
  }

  /** Reference definition: the admissible anchors, in order, with no cap. */
  function Admitted(anchors: seq<Option<Url>>): (r: seq<Found>)
    ensures |r| <= |anchors|
    ensures forall i :: 0 <= i < |r| ==>
              r[i].Listed? && AllowedHost(r[i].url.hostname) && Some(r[i].url) in anchors
  {
    if |anchors| == 0 then []
    else
      var rest := Admitted(anchors[1..]);
      if Admissible(anchors[0]) then [Listed(anchors[0].value)] + rest else rest
  }

  /** The walk over one result page, from the front, stopping once twenty results are held. It only
      appends, never past the cap, and only allow-listed URLs of the page's own anchors. */
  function Collect(found: seq<Found>, anchors: seq<Option<Url>>): (r: seq<Found>)
    ensures |found| <= MaxResults ==> |r| <= MaxResults
    ensures |found| <= |r| && r[..|found|] == found
    ensures forall i :: |found| <= i < |r| ==>
              r[i].Listed? && AllowedHost(r[i].url.hostname) && Some(r[i].url) in anchors
    decreases |anchors|
  {
    if |anchors| == 0 || |found| >= MaxResults then found
    else if Admissible(anchors[0]) then
      var next := found + [Listed(anchors[0].value)];
      var r := Collect(next, anchors[1..]);
      assert r[..|found|] == r[..|next|][..|found|];
      assert forall i :: |found| <= i < |next| ==> r[i] == next[i];
      r
    else Collect(found, anchors[1..])
  }

  /** The walk appends the admissible anchors in order, as many as fit under the cap. */
  lemma {:induction false} CollectTakesAdmitted(found: seq<Found>, anchors: seq<Option<Url>>)
    requires |found| <= MaxResults
    ensures Collect(found, anchors) == found + Take(Admitted(anchors), MaxResults - |found|)
    decreases |anchors|
  {
    if |anchors| == 0 || |found| == MaxResults {
      assert found + [] == found;
    } else {
      var rest := Admitted(anchors[1..]);
      var n := MaxResults - |found|;
      if Admissible(anchors[0]) {
        var x := Listed(anchors[0].value);
        assert Admitted(anchors) == [x] + rest;
        assert Collect(found, anchors) == Collect(found + [x], anchors[1..]);
        CollectTakesAdmitted(found + [x], anchors[1..]);
        TakeCons(x, rest, n);
        assert (found + [x]) + Take(rest, n - 1) == found + ([x] + Take(rest, n - 1));
      } else {
        assert Admitted(anchors) == rest;
        assert Collect(found, anchors) == Collect(found, anchors[1..]);
        CollectTakesAdmitted(found, anchors[1..]);
      }
    }
  }

  /** The three direct search URLs, on zillow, realtor and redfin, for a location. */
  function FallbackUrls(location: string): (r: seq<Found>)
    ensures |r| == 3
    ensures forall i :: 0 <= i < 3 ==> r[i].Fallback?
  {
    var encoded := EncodeURIComponent(location);
    [ Fallback("https://www.zillow.com/homes/" + encoded + "_rb/"),
      Fallback("https://www.realtor.com/realestateandhomes-search/" + encoded),
      Fallback("https://www.redfin.com/city/" + encoded) ]
  }

  /** One phrase: a page of anchors is walked; a failed search falls back only when nothing has
      been collected. */
  function Step(found: seq<Found>, s: Search): (r: seq<Found>)
    ensures s.outcome.SearchFailed? && |found| > 0 ==> r == found
    ensures s.outcome.SearchFailed? && |found| == 0 ==> |r| == 3 && forall i :: 0 <= i < 3 ==> r[i].Fallback?
    ensures s.outcome.SearchOk? ==>
              && |found| <= |r| && r[..|found|] == found
              && (|found| <= MaxResults ==> |r| <= MaxResults)
              && forall i :: |found| <= i < |r| ==>
                   r[i].Listed? && AllowedHost(r[i].url.hostname) && Some(r[i].url) in s.outcome.anchors
  {
    match s.outcome
    case SearchOk(anchors) => Collect(found, anchors)
    case SearchFailed =>
      if |found| == 0 then FallbackUrls(ExtractLocation(s.phrase, DefaultLocation)) else found
  }

  predicate HasFallback(found: seq<Found>) {
    exists i :: 0 <= i < |found| && found[i].Fallback?
  }

  /** A search hit that one of the successful searches returned. */
  ghost predicate FromSearches(u: Url, searches: seq<Search>) {
    exists k :: 0 <= k < |searches| && searches[k].outcome.SearchOk?
                && Some(u) in searches[k].outcome.anchors
  }

  /** The first three results are the fallback URLs of a phrase whose search failed. */
  ghost predicate FallbackBlock(found: seq<Found>, searches: seq<Search>) {
    && |found| >= 3
    && exists k :: 0 <= k < |searches| && searches[k].outcome.SearchFailed?
                   && found[..3] == FallbackUrls(ExtractLocation(searches[k].phrase, DefaultLocation))
  }

  /** What the collection keeps true after every phrase: at most twenty results; every search hit is
      allow-listed and came from a successful search; fallback URLs, when present, are the first
      three results and were built for the phrase of a failed search. */
  ghost predicate Valid(found: seq<Found>, searches: seq<Search>) {
    && |found| <= MaxResults
    && (forall i :: 0 <= i < |found| && found[i].Listed? ==>
          AllowedHost(found[i].url.hostname) && FromSearches(found[i].url, searches))
    && (forall i :: 0 <= i < |found| && found[i].Fallback? ==> i < 3)
    && (HasFallback(found) ==> FallbackBlock(found, searches))
  }

  /** A step keeps what was collected before it. */
  lemma StepExtends(found: seq<Found>, s: Search)
    requires |found| <= MaxResults
    ensures var r := Step(found, s);
            && |r| <= MaxResults && (|found| > 0 ==> |found| <= |r| && r[..|found|] == found)
            && (forall i :: |found| <= i < |r| && |found| > 0 ==>
                  s.outcome.SearchOk? && r[i].Listed? && AllowedHost(r[i].url.hostname)
                  && Some(r[i].url) in s.outcome.anchors)
  {
  }

  /** A step adds fallback URLs only for a failed search, only to an empty collection, and then
      its result is exactly those three URLs. */
  lemma StepAddsFallback(found: seq<Found>, s: Search)
    requires |found| <= MaxResults && !HasFallback(found) && HasFallback(Step(found, s))
    ensures s.outcome.SearchFailed? && found == []
    ensures Step(found, s) == FallbackUrls(ExtractLocation(s.phrase, DefaultLocation))
  {
  }

  lemma FromSearchesGrows(u: Url, searches: seq<Search>, s: Search)
    requires FromSearches(u, searches)
    ensures FromSearches(u, searches + [s])
  {
    var k :| 0 <= k < |searches| && searches[k].outcome.SearchOk? && Some(u) in searches[k].outcome.anchors;
    assert (searches + [s])[k] == searches[k];
  }

  lemma FallbackBlockGrows(found: seq<Found>, searches: seq<Search>, s: Search, r: seq<Found>)
    requires FallbackBlock(found, searches) && |found| <= |r| && r[..|found|] == found
    ensures FallbackBlock(r, searches + [s])
  {
    var k :| 0 <= k < |searches| && searches[k].outcome.SearchFailed?
             && found[..3] == FallbackUrls(ExtractLocation(searches[k].phrase, DefaultLocation));
    var all := searches + [s];
    assert all[k] == searches[k];
    PrefixOfPrefix(r, found, 3);
  }

  /** `Step` keeps `Valid`, for the searches seen so far plus the new one. */
  lemma StepKeepsValid(found: seq<Found>, searches: seq<Search>, s: Search)
    requires Valid(found, searches)
    ensures Valid(Step(found, s), searches + [s])
  {
    if |found| == 0 {
      FirstStepValid(searches, s);
    } else {
      LaterStepValid(found, searches, s);
    }
  }

  /** On an empty collection a step yields either hits of its own search or its fallback URLs. */
  lemma FirstStepValid(searches: seq<Search>, s: Search)
    ensures Valid(Step([], s), searches + [s])
  {
    if s.outcome.SearchOk? {
      FirstHitsValid(searches, s);
    } else {
      FirstFallbackValid(searches, s);
    }
  }

  lemma FirstHitsValid(searches: seq<Search>, s: Search)
    requires s.outcome.SearchOk?
    ensures Valid(Step([], s), searches + [s])
  {
    var all := searches + [s];
    var r := Step([], s);
    assert all[|searches|] == s;
    StepExtends([], s);
    assert forall i :: 0 <= i < |r| ==> r[i].Listed? && Some(r[i].url) in s.outcome.anchors;
  }

  lemma FirstFallbackValid(searches: seq<Search>, s: Search)
    requires s.outcome.SearchFailed?
    ensures Valid(Step([], s), searches + [s])
  {
    var all := searches + [s];
    var r := Step([], s);
    assert all[|searches|] == s;
    assert r == FallbackUrls(ExtractLocation(s.phrase, DefaultLocation));
    PrefixOfPrefix(r, r, 3);
    assert FallbackBlock(r, all);
  }

  /** On a non-empty collection a step keeps what was there and appends hits of its own search. */
  lemma LaterStepValid(found: seq<Found>, searches: seq<Search>, s: Search)
    requires Valid(found, searches) && |found| > 0
    ensures Valid(Step(found, s), searches + [s])
  {
    var all := searches + [s];
    var r := Step(found, s);
    StepExtends(found, s);
    forall i | 0 <= i < |r| && r[i].Listed?
      ensures AllowedHost(r[i].url.hostname) && FromSearches(r[i].url, all)
    {
      if i < |found| {
        assert r[i] == found[i];
        FromSearchesGrows(r[i].url, searches, s);
      } else {
        assert all[|searches|] == s;
      }
    }
    forall i | 0 <= i < |r| && r[i].Fallback? ensures i < 3 {
      if i >= |found| {
        assert false;
      } else {
        assert r[i] == found[i];
      }
    }
    if HasFallback(r) {
      if !HasFallback(found) {
        StepAddsFallback(found, s);
      }
      FallbackBlockGrows(found, searches, s, r);
    }
  }

  /** The collection after every phrase has been searched, in order. */
  function Discover(searches: seq<Search>): (r: seq<Found>)
    ensures Valid(r, searches)
  {
    if |searches| == 0 then []
    else
      var previous := searches[..|searches| - 1];
      var last := searches[|searches| - 1];
      var found := Discover(previous);
      StepKeepsValidFor(found, previous, last, searches);
      Step(found, last)
  }

  lemma StepKeepsValidFor(found: seq<Found>, previous: seq<Search>, last: Search, searches: seq<Search>)
    requires Valid(found, previous) && |searches| > 0
    requires previous == searches[..|searches| - 1] && last == searches[|searches| - 1]
    ensures Valid(Step(found, last), searches)
  {
    assert previous + [last] == searches;
    StepKeepsValid(found, previous, last);
  }

  /** `searchResults`: the collected URLs as strings. */
  function SearchResults(found: seq<Found>): (r: seq<string>)
    ensures |r| == |found|
    ensures forall i :: 0 <= i < |found| ==> r[i] == found[i].Href()
  {
    seq(|found|, i requires 0 <= i < |found| => found[i].Href())
  }
}

=== FILE: expansion.dfy ===
/** Query expansion: the phrases the route searches for. The model is asked for an object with a
    `queries` array; when its reply does not parse, eight fixed templates are filled in with the
    location found in the user's query. Whatever list results, only its first six entries are
    searched. */
module Expansion {
  import opened Options
  import opened Strings
  import opened Sequences
  import opened Json
  import opened Location

  /** The location used when the query names none. */
  const DefaultLocation: string := "Los Angeles"

  /** The fallback templates, in order; each is completed by appending the location. */
  const Templates: seq<string> := [
    "condos in ", "apartments in ", "houses for sale in ", "townhouses in ",
    "luxury homes in ", "investment properties in ", "real estate listings in ",
    "properties for sale in "
  ]

  /** `queries.slice(0, 6)`: how many phrases the discovery loop consumes. */
  const MaxPhrases: nat := 6

  /** The `queries` field of a parsed expansion reply: an array of phrases, or any other value
      (absent, null, a number, a string, an object). */
  datatype QueriesField = List(items: seq<string>) | Scalar(value: Value)

  /** The eight fallback phrases: template `i` followed by the location of the query. */
  function FallbackQueries(query: string): (r: seq<string>)
    ensures |r| == |Templates|
    ensures forall i :: 0 <= i < |r| ==>
              && StartsWith(r[i], Templates[i])
              && r[i][|Templates[i]|..] == ExtractLocation(query, DefaultLocation)
  {
    var location := ExtractLocation(query, DefaultLocation);
    var r := seq(|Templates|, i requires 0 <= i < |Templates| => Templates[i] + location);
    assert forall i :: 0 <= i < |r| ==> r[i][..|Templates[i]|] == Templates[i];
    r
  }

  /** A JavaScript string walked by `for…of`: one single-character string per character. */
  function Characters(s: string): (r: seq<string>)
    ensures |r| == |s|
    ensures forall i :: 0 <= i < |s| ==> r[i] == [s[i]]
  {
    if |s| == 0 then [] else [[s[0]]] + Characters(s[1..])
  }

  /** `variationsData.queries || [query]`, as the sequence the loop walks (before the slice).
      `None` is an exception that escapes to the route's outer handler: the expansion call threw,
      the reply parsed to `null`, or `queries` is truthy but has no `slice` method. */
  function Candidates(query: string, reply: Reply<QueriesField>): (r: Option<seq<string>>)
    ensures r.None? <==> || reply.CallFailed? || reply.ParsedNull?
                         || (reply.Parsed? && reply.value.Scalar? && Truthy(reply.value.value)
                             && !reply.value.value.Str?)
    ensures reply.Unparseable? ==> r == Some(FallbackQueries(query))
    ensures reply.Parsed? && reply.value.Scalar? && !Truthy(reply.value.value) ==> r == Some([query])
    ensures reply.Parsed? && reply.value.List? ==> r == Some(reply.value.items)
    ensures reply.Parsed? && reply.value.Scalar? && reply.value.value.Str? && Truthy(reply.value.value) ==>
              r == Some(Characters(reply.value.value.s))
  {
    match reply
    case CallFailed => None
    case ParsedNull => None
    case Unparseable => Some(FallbackQueries(query))
    case Parsed(List(items)) => Some(items)
    case Parsed(Scalar(v)) =>
      if !Truthy(v) then Some([query])
      else if v.Str? then Some(Characters(v.s))
      else None
  }

  /** The phrases searched: the first six candidates, in order, or the whole list when shorter. */
  function SearchPhrases(query: string, reply: Reply<QueriesField>): (r: Option<seq<string>>)
    ensures r.None? <==> Candidates(query, reply).None?
    ensures r.Some? ==> |r.value| <= MaxPhrases
    ensures r.Some? ==> var c := Candidates(query, reply).value;
              && |r.value| <= |c| && r.value == c[..|r.value|]
              && (|c| <= MaxPhrases ==> r.value == c)
              && (|c| > MaxPhrases ==> |r.value| == MaxPhrases)
  {
    match Candidates(query, reply)
    case None => None
    case Some(c) => Some(Take(c, MaxPhrases))
  }

  /** An unparseable reply searches the first six templates, in their fixed order, each ending in
      the one location taken from the query. */
  lemma UnparseableSearchesTemplates(query: string)
    ensures var r := SearchPhrases(query, Unparseable);
            && r.Some? && |r.value| == MaxPhrases
            && forall i :: 0 <= i < MaxPhrases ==>
                 r.value[i] == Templates[i] + ExtractLocation(query, DefaultLocation)
  {
    var f := FallbackQueries(query);
    forall i | 0 <= i < MaxPhrases
      ensures f[i] == Templates[i] + ExtractLocation(query, DefaultLocation)
    {
      assert f[i] == f[i][..|Templates[i]|] + f[i][|Templates[i]|..];
    }
  }

  /** A parsed reply whose `queries` is falsy (absent, `null`, `false`, `0` or `""`) searches the
      user's query itself, alone. */
  lemma MissingQueriesSearchesQuery(query: string, v: Value)
    requires !Truthy(v)
    ensures SearchPhrases(query, Parsed(Scalar(v))) == Some([query])
  {
  }

  /** A `queries` array is searched as given, up to its sixth entry; an empty array searches nothing. */
  lemma QueriesArraySearched(query: string, items: seq<string>)
    ensures SearchPhrases(query, Parsed(List(items))) == Some(Take(items, MaxPhrases))
  {
  }

  /** The expansion step throws, and the request ends with an error, exactly when the call fails,
      its reply parses to `null`, or a truthy `queries` is neither an array nor a string, so that it
      has no `slice` method. An unparseable reply never throws: it falls back to the templates. */
  lemma ExpansionFailureIsError(query: string, reply: Reply<QueriesField>)
    ensures SearchPhrases(query, reply).None? <==>
              || reply.CallFailed? || reply.ParsedNull?
              || (reply.Parsed? && reply.value.Scalar? && Truthy(reply.value.value) && !reply.value.value.Str?)
  {
  }
}

=== FILE: extraction.dfy ===
/** Listing extraction: each of the (at most ten) unique URLs is fetched; the elements its page
    matches are read in turn, and an element with a title and a long enough price becomes a listing
    unless it repeats a held one by title or by URL. At most twenty listings are held. When a page
    was fetched and the list is still empty, a placeholder pointing at that page is added. */
module Extraction {
  import opened Options
  import opened Strings
  import opened Sequences
  import opened Location

  /** The cap on held listings, checked before every element. */
  const MaxListings: nat := 20

  /** Stored titles are cut to this many characters. */
  const MaxTitle: nat := 100

  /** The shortest digit string accepted as a price is one more than this. */
  const MinPriceDigits: nat := 4

  /** The location used in a placeholder title when the user's query names none. */
  const PlaceholderLocation: string := "your area"

  /** One matched page element, as the selectors see it: the text of the first match of each title
      selector and of each price selector, in selector order ("" where a selector finds nothing),
      and the `href` of its first anchor ("" when there is none). */
  datatype Element = Element(titleTexts: seq<string>, priceTexts: seq<string>, link: string)

  /** A fetch: an error (status, timeout, network), or the matched elements in selector order,
      each selector's matches in document order. */
  datatype FetchOutcome = FetchFailed | Fetched(elements: seq<Element>)

  datatype Fetch = Fetch(url: string, outcome: FetchOutcome)

  datatype Listing = Listing(title: string, price: string, address: string, url: string)

  /** The first string of `ts` that is not empty, or "" when there is none. */
  function FirstFilled(ts: seq<string>): string {
    if |ts| == 0 then ""
    else if ts[0] != "" then ts[0]
    else FirstFilled(ts[1..])
  }

  lemma {:induction false} FirstFilledIsFirst(ts: seq<string>)
    ensures FirstFilled(ts) == "" <==> forall i :: 0 <= i < |ts| ==> ts[i] == ""
    ensures FirstFilled(ts) != "" ==>
              exists i :: 0 <= i < |ts| && FirstFilled(ts) == ts[i] && forall j :: 0 <= j < i ==> ts[j] == ""
  {
    if |ts| > 0 && ts[0] == "" {
      var rest := ts[1..];
      FirstFilledIsFirst(rest);
      assert forall i :: 1 <= i < |ts| ==> ts[i] == rest[i - 1];
      if FirstFilled(rest) != "" {
        var i :| 0 <= i < |rest| && FirstFilled(rest) == rest[i] && forall j :: 0 <= j < i ==> rest[j] == "";
        assert FirstFilled(ts) == ts[i + 1];
      }
    }
  }

  /** The selector loop: the first trimmed text that is not empty, or "" when there is none. */
  function FirstNonEmpty(texts: seq<string>): string {
    FirstFilled(seq(|texts|, i requires 0 <= i < |texts| => Trim(texts[i])))
  }

  /** The selector loop yields "" exactly when every text is blank, and otherwise the trimmed text
      of the first selector whose text is not blank. */
  lemma FirstNonEmptyIsFirst(texts: seq<string>)
    ensures FirstNonEmpty(texts) == "" <==> forall i :: 0 <= i < |texts| ==> Trim(texts[i]) == ""
    ensures FirstNonEmpty(texts) != "" ==>
              exists i :: 0 <= i < |texts| && FirstNonEmpty(texts) == Trim(texts[i])
                          && forall j :: 0 <= j < i ==> Trim(texts[j]) == ""
  {
    var ts := seq(|texts|, i requires 0 <= i < |texts| => Trim(texts[i]));
    FirstFilledIsFirst(ts);
    assert FirstNonEmpty(texts) == FirstFilled(ts);
    assert forall i :: 0 <= i < |texts| ==> ts[i] == Trim(texts[i]);
  }

  /** Where a listing points: the page itself for an empty `href`, an `href` starting with "http"
      as it is, and otherwise the `href` resolved against the page URL; `resolve` stands for
      `new URL(href, base)` and a resolution failure falls back to the page. */
  function ResolveLink(link: string, page: string, resolve: (string, string) -> Option<string>): (r: string)
    ensures link == "" ==> r == page
    ensures link != "" && StartsWith(link, "http") ==> r == link
    ensures link != "" && !StartsWith(link, "http") ==>
              if resolve(link, page).Some? then r == resolve(link, page).value else r == page
  {
    if link == "" then page
    else if StartsWith(link, "http") then link
    else match resolve(link, page)
      case Some(u) => u
      case None => page
  }

  /** A listing as extraction stores it: a digit-only price of more than four digits, a title of
      at most a hundred characters that begins the address. */
  predicate IsRecord(l: Listing) {
    && AllDigits(l.price) && |l.price| > MinPriceDigits
    && |l.title| <= MaxTitle && l.address != ""
    && |l.title| <= |l.address| && l.title == l.address[..|l.title|]
  }

  /** The placeholder for a page with nothing extracted. */
  function Placeholder(query: string, page: string): (r: Listing)
    ensures r.price == "0" && r.address == page && r.url == page
    ensures StartsWith(r.title, "Properties in ")
    ensures r.title[|"Properties in "|..] == ExtractLocation(query, PlaceholderLocation)
  {
    Listing("Properties in " + ExtractLocation(query, PlaceholderLocation), "0", page, page)
  }

  /** The listing stored for an accepted element: the title cut to a hundred characters, the
      full title as address. */
  function Record(title: string, price: string, url: string): (r: Listing)
    requires title != "" && AllDigits(price) && |price| > MinPriceDigits
    ensures IsRecord(r) && r.address == title && r.price == price && r.url == url
    ensures |title| <= MaxTitle ==> r.title == title
    ensures |title| > MaxTitle ==> |r.title| == MaxTitle
  {
    Listing(Take(title, MaxTitle), price, title, url)
  }

  /** The element's listing, when it has a title and a price of more than four digits. */
  function Candidate(e: Element, page: string, resolve: (string, string) -> Option<string>): (r: Option<Listing>)
    ensures r.Some? <==> FirstNonEmpty(e.titleTexts) != ""
                         && |DigitsOnly(FirstNonEmpty(e.priceTexts))| > MinPriceDigits
    ensures r.Some? ==> r.value == Record(FirstNonEmpty(e.titleTexts), DigitsOnly(FirstNonEmpty(e.priceTexts)),
                                          ResolveLink(e.link, page, resolve))
  {
    var title := FirstNonEmpty(e.titleTexts);
    var price := DigitsOnly(FirstNonEmpty(e.priceTexts));
    if title != "" && |price| > MinPriceDigits then Some(Record(title, price, ResolveLink(e.link, page, resolve)))
    else None
  }

  /** `isDuplicate`: a held listing whose stored title, lower-cased, is the candidate's full title
      lower-cased, or whose URL is the candidate's. */
  predicate IsDuplicate(held: seq<Listing>, c: Listing) {
    exists i :: 0 <= i < |held| && (Lower(held[i].title) == Lower(c.address) || held[i].url == c.url)
  }

  /** One element: nothing changes once twenty listings are held; otherwise its candidate is
      appended exactly when there is one and it is not a duplicate. */
  function Admit(held: seq<Listing>, e: Element, page: string, resolve: (string, string) -> Option<string>): (r: seq<Listing>)
    ensures |held| <= |r| <= |held| + 1 && r[..|held|] == held
    ensures |r| == |held| + 1 ==> |held| < MaxListings && IsRecord(r[|held|]) && !IsDuplicate(held, r[|held|])
  {
    if |held| >= MaxListings then held
    else match Candidate(e, page, resolve)
      case None => held
      case Some(c) => if IsDuplicate(held, c) then held else held + [c]
  }

  /** Below the cap, an element with a candidate is turned away exactly when the candidate repeats
      a held listing's stored title, ignoring case, or its URL; otherwise the candidate is
      appended. At the cap, or without a candidate, nothing changes. */
  lemma AdmitRejectsExactlyDuplicates(held: seq<Listing>, e: Element, page: string,
                                      resolve: (string, string) -> Option<string>)
    ensures var r, c := Admit(held, e, page, resolve), Candidate(e, page, resolve);
            && (|held| >= MaxListings || c.None? ==> r == held)
            && (|held| < MaxListings && c.Some? ==>
                  (r == held <==> IsDuplicate(held, c.value))
                  && (!IsDuplicate(held, c.value) ==> r == held + [c.value]))
  {
  }

  /** What the held list keeps true: at most twenty listings; pairwise distinct URLs; no listing's
      stored title equals, ignoring case, the full title of a later one; every listing is a record,
      except that the first may be a placeholder (price "0", the page as address and URL). */
  ghost predicate Valid(held: seq<Listing>) {
    && |held| <= MaxListings
    && (forall i, j :: 0 <= i < j < |held| ==> held[i].url != held[j].url)
    && (forall i, j :: 0 <= i < j < |held| ==> Lower(held[i].title) != Lower(held[j].address))
    && (forall i :: 0 < i < |held| ==> IsRecord(held[i]))
    && (|held| > 0 ==> IsRecord(held[0]) || (held[0].price == "0" && held[0].address == held[0].url))
  }

  /** Appending a record that is not a duplicate, below the cap, keeps `Valid`. */
  lemma AppendKeepsValid(held: seq<Listing>, c: Listing)
    requires Valid(held) && |held| < MaxListings && IsRecord(c) && !IsDuplicate(held, c)
    ensures Valid(held + [c])
  {
    var r := held + [c];
    assert forall i :: 0 <= i < |held| ==> r[i] == held[i];
    assert forall i :: 0 <= i < |held| ==> Lower(held[i].title) != Lower(c.address) && held[i].url != c.url;
  }

  lemma AdmitKeepsValid(held: seq<Listing>, e: Element, page: string, resolve: (string, string) -> Option<string>)
    ensures Valid(held) ==> Valid(Admit(held, e, page, resolve))
  {
    if Valid(held) && |held| < MaxListings {
      var candidate := Candidate(e, page, resolve);
      if candidate.Some? && !IsDuplicate(held, candidate.value) {
        AppendKeepsValid(held, candidate.value);
      }
    }
  }

  /** `Admit` appends at most one listing, and only a record. */
  lemma AdmitAppendsRecord(held: seq<Listing>, e: Element, page: string, resolve: (string, string) -> Option<string>)
    ensures var r := Admit(held, e, page, resolve);
            && (r == held || (|r| == |held| + 1 && IsRecord(r[|held|])))
            && |held| <= |r| && r[..|held|] == held
  {
  }

  /** The elements of one fetched page, read in order. Held listings are never dropped or changed. */
  function ScanPage(held: seq<Listing>, elements: seq<Element>, page: string,
                    resolve: (string, string) -> Option<string>): (r: seq<Listing>)
    ensures |held| <= |r| && r[..|held|] == held
    ensures Valid(held) ==> Valid(r)
    ensures forall i :: |held| <= i < |r| ==> IsRecord(r[i])
  {
    if |elements| == 0 then held
    else
      var previous := ScanPage(held, elements[..|elements| - 1], page, resolve);
      var r := Admit(previous, elements[|elements| - 1], page, resolve);
      AdmitKeepsValid(previous, elements[|elements| - 1], page, resolve);
      AdmitAppendsRecord(previous, elements[|elements| - 1], page, resolve);
      PrefixTrans(held, previous, r);
      r
  }

  /** One URL: a failed fetch leaves the list as it was; a fetched page is scanned, and if the list
      is still empty afterwards it receives the placeholder for that page. */
  function ScrapeUrl(held: seq<Listing>, f: Fetch, query: string,
                     resolve: (string, string) -> Option<string>): (r: seq<Listing>)
    ensures |held| <= |r| && r[..|held|] == held
    ensures f.outcome.FetchFailed? ==> r == held
    ensures f.outcome.Fetched? ==> |r| > 0
  {
    match f.outcome
    case FetchFailed => held
    case Fetched(elements) =>
      var r := ScanPage(held, elements, f.url, resolve);
      if |r| == 0 then [Placeholder(query, f.url)] else r
  }

  /** A failed fetch changes nothing. */
  lemma FailedFetchKeepsList(held: seq<Listing>, f: Fetch, query: string,
                             resolve: (string, string) -> Option<string>)
    requires f.outcome.FetchFailed?
    ensures ScrapeUrl(held, f, query, resolve) == held
  {
  }

  /** A placeholder (a listing priced "0") is added only after a fetched page, only to an empty
      list, and then it is the only listing. */
  lemma PlaceholderOnlyWhenEmpty(held: seq<Listing>, f: Fetch, query: string,
                                 resolve: (string, string) -> Option<string>)
    ensures var r := ScrapeUrl(held, f, query, resolve);
            && |held| <= |r| && r[..|held|] == held
            && forall i :: |held| <= i < |r| && r[i].price == "0" ==>
                 held == [] && f.outcome.Fetched? && r == [Placeholder(query, f.url)]
  {
    var r := ScrapeUrl(held, f, query, resolve);
    if f.outcome.Fetched? {
      var scanned := ScanPage(held, f.outcome.elements, f.url, resolve);
      if |scanned| > 0 {
        forall i | |held| <= i < |r| ensures r[i].price != "0" {
          assert IsRecord(r[i]);
        }
      }
    }
  }

  /** `properties` after every fetch, in order. Once one page has been fetched the list is never
      empty, because a page that yields nothing leaves the placeholder. */
  function Scrape(fetches: seq<Fetch>, query: string, resolve: (string, string) -> Option<string>): (r: seq<Listing>)
    ensures Valid(r)
    ensures (exists k :: 0 <= k < |fetches| && fetches[k].outcome.Fetched?) ==> |r| > 0
  {
    if |fetches| == 0 then []
    else
      var before := fetches[..|fetches| - 1];
      var previous := Scrape(before, query, resolve);
      var f := fetches[|fetches| - 1];
      ScrapeUrlKeepsValid(previous, f, query, resolve);
      var r := ScrapeUrl(previous, f, query, resolve);
      assert (exists k :: 0 <= k < |fetches| && fetches[k].outcome.Fetched?) ==> |r| > 0 by {
        if !f.outcome.Fetched? && exists k :: 0 <= k < |fetches| && fetches[k].outcome.Fetched? {
          var k :| 0 <= k < |fetches| && fetches[k].outcome.Fetched?;
          assert before[k] == fetches[k];
        }
      }
      r
  }

  lemma ScrapeUrlKeepsValid(held: seq<Listing>, f: Fetch, query: string,
                            resolve: (string, string) -> Option<string>)
    requires Valid(held)
    ensures Valid(ScrapeUrl(held, f, query, resolve))
  {
    if f.outcome.Fetched? {
      var scanned := ScanPage(held, f.outcome.elements, f.url, resolve);
      assert Valid(scanned);
    }
  }

  /** The stored title is a prefix of the full one, so a title longer than a hundred characters
      never matches its own stored copy: two elements with the same long title and different URLs
      are both kept. */
  lemma LongTitlesNotDeduplicated(e1: Element, e2: Element, page: string,
                                  resolve: (string, string) -> Option<string>)
    requires e1.titleTexts == e2.titleTexts && |FirstNonEmpty(e1.titleTexts)| > MaxTitle
    requires Candidate(e1, page, resolve).Some? && Candidate(e2, page, resolve).Some?
    requires ResolveLink(e1.link, page, resolve) != ResolveLink(e2.link, page, resolve)
    ensures |Admit(Admit([], e1, page, resolve), e2, page, resolve)| == 2
  {
    var c1 := Candidate(e1, page, resolve).value;
    var c2 := Candidate(e2, page, resolve).value;
    AdmitRejectsExactlyDuplicates([], e1, page, resolve);
    assert Admit([], e1, page, resolve) == [c1];
    ShorterTitleNotDuplicate(c1, c2);
    AdmitRejectsExactlyDuplicates([c1], e2, page, resolve);
  }

  lemma ShorterTitleNotDuplicate(c1: Listing, c2: Listing)
    requires |c1.title| < |c2.address| && c1.url != c2.url
    ensures !IsDuplicate([c1], c2)
  {
    assert |Lower(c1.title)| != |Lower(c2.address)|;
  }
}

=== FILE: fences.dfy ===
/** The clean-up the agent route applies to a model reply before `JSON.parse`:
    `content.replace(/```json\n?/g, '').replace(/```\n?/g, '').trim()`.
    Each global replace scans left to right and removes every non-overlapping match. */
module Fences {
  import opened Strings

  predicate IsTick(c: char) {
    c == '`'
  }

  /** `s` starts with three backticks. */
  predicate FenceAt(s: string) {
    |s| >= 3 && IsTick(s[0]) && IsTick(s[1]) && IsTick(s[2])
  }

  /** No three consecutive backticks anywhere in `s`. */
  predicate NoFence(s: string) {
    forall i :: 0 <= i < |s| - 2 ==> !FenceAt(s[i..])
  }

  predicate NoTicks(s: string) {
    forall i :: 0 <= i < |s| ==> !IsTick(s[i])
  }

  /** `s.replace(/```json\n?/g, '')`. */
  function RemoveJsonFences(s: string): (r: string)
    ensures |r| <= |s|
    decreases |s|
  {
    if |s| >= 7 && s[..7] == "```json" then
      RemoveJsonFences(if |s| > 7 && s[7] == '\n' then s[8..] else s[7..])
    else if |s| == 0 then []
    else [s[0]] + RemoveJsonFences(s[1..])
  }

  /** `s.replace(/```\n?/g, '')`. Because the scan is leftmost-first, a backtick it keeps never
      joins the characters after a removed fence into a new fence. */
  function RemoveFences(s: string): (r: string)
    ensures |r| <= |s|
    ensures |s| > 0 && !FenceAt(s) ==> |r| > 0 && r[0] == s[0]
    ensures NoFence(r)
    decreases |s|
  {
    if FenceAt(s) then
      RemoveFences(if |s| > 3 && s[3] == '\n' then s[4..] else s[3..])
    else if |s| == 0 then []
    else
      var rest := RemoveFences(s[1..]);
      var r := [s[0]] + rest;
      assert !FenceAt(r) by {
        if IsTick(s[0]) && |s| >= 2 {
          if IsTick(s[1]) {
            assert !FenceAt(s[1..]);
            if |s| >= 3 {
              assert !IsTick(s[2]);
              assert !FenceAt(s[2..]);
              assert rest[1..] == RemoveFences(s[2..]) by {
                assert s[1..][1..] == s[2..];
              }
            }
          } else {
            assert !FenceAt(s[1..]);
          }
        }
      }
      assert forall i :: 1 <= i < |r| - 2 ==> r[i..] == rest[i - 1..];
      r
  }

  /** A slice of a string without a fence has none either. */
  lemma SliceKeepsNoFence(s: string, i: nat, j: nat)
    requires NoFence(s) && i <= j <= |s|
    ensures NoFence(s[i..j])
  {
    var t := s[i..j];
    forall k | 0 <= k < |t| - 2 ensures !FenceAt(t[k..]) {
      assert !FenceAt(s[i + k..]);
      assert t[k..][0] == s[i + k..][0] && t[k..][1] == s[i + k..][1] && t[k..][2] == s[i + k..][2];
    }
  }

  /** The cleaned reply contains no code fence, whatever the model sent. */
  function CleanReply(content: string): (r: string)
    ensures NoFence(r)
  {
    var s := RemoveFences(RemoveJsonFences(content));
    // `trim` is `TrimEnd` after `TrimStart`; each keeps a slice of its input.
    var t := TrimStart(s);
    SliceKeepsNoFence(s, |s| - |t|, |s|);
    var r := TrimEnd(t);
    SliceKeepsNoFence(t, 0, |r|);
    r
  }

  /** A reply with no backtick is only trimmed. */
  lemma {:induction false} RemoveFencesKeepsTickFree(s: string)
    requires NoTicks(s)
    ensures RemoveFences(s) == s && RemoveJsonFences(s) == s
  {
    if |s| > 0 {
      assert NoTicks(s[1..]);
      RemoveFencesKeepsTickFree(s[1..]);
    }
  }

  /** A reply with no backtick is only trimmed. */
  lemma CleanReplyOfTickFree(content: string)
    requires NoTicks(content)
    ensures CleanReply(content) == Trim(content)
  {
    RemoveFencesKeepsTickFree(content);
  }
}

=== FILE: json.dfy ===
/** The JavaScript values a parsed model reply can put in a field, with the three
    operations the agent route applies to them: truthiness (`!x`, `x || y`),
    `typeof x === 'number'`, and the global `parseInt` called without a radix. */
module Json {
  import opened Options
  import opened Strings
  import opened Sequences

  /** A field of a parsed JSON object as JavaScript sees it. `Undefined` is a key that is absent;
      `Obj` is a non-array object (arrays are not modelled in numeric fields). */
  datatype Value = Undefined | Null | Bool(b: bool) | Num(n: real) | Str(s: string) | Obj

  /** The outcome of a generative call whose reply the route hands to `JSON.parse`: the call
      itself threw, the text did not parse, it parsed to `null` (so reading a field throws), or it
      parsed to something whose fields are `value` (a parsed non-object has every field undefined). */
  datatype Reply<+T> = CallFailed | Unparseable | ParsedNull | Parsed(value: T)

  /** ECMAScript ToBoolean. JSON numbers are finite, so NaN never occurs here: the falsy values are
      exactly `undefined`, `null`, `false`, `0` and `""`. */
  function Truthy(v: Value): (r: bool)
    ensures !r <==> v == Undefined || v == Null || v == Bool(false) || v == Num(0.0) || v == Str("")
  {
    match v
    case Undefined => false
    case Null => false
    case Bool(b) => b
    case Num(n) => n != 0.0
    case Str(s) => s != ""
    case Obj => true
  }

  /** ECMAScript ToString of a value that is not a number (the only ones `parseInt` receives here). */
  function JsString(v: Value): string
    requires !v.Num?
  {
    match v
    case Undefined => "undefined"
    case Null => "null"
    case Bool(b) => if b then "true" else "false"
    case Str(s) => s
    case Obj => "[object Object]"
  }

  predicate IsRadixDigit(c: char, radix: nat) {
    if radix == 16 then IsDigit(c) || ('a' <= c <= 'f') || ('A' <= c <= 'F') else IsDigit(c)
  }

  function DigitValue(c: char): nat {
    if IsDigit(c) then c as int - '0' as int
    else if 'a' <= c <= 'f' then c as int - 'a' as int + 10
    else if 'A' <= c <= 'F' then c as int - 'A' as int + 10
    else 0
  }

  /** Length of the longest prefix of `s` made of digits in `radix`. */
  function DigitPrefix(s: string, radix: nat): (n: nat)
    ensures n <= |s|
    ensures forall i :: 0 <= i < n ==> IsRadixDigit(s[i], radix)
    ensures n == |s| || !IsRadixDigit(s[n], radix)
  {
    if |s| > 0 && IsRadixDigit(s[0], radix) then 1 + DigitPrefix(s[1..], radix) else 0
  }

  /** The number a digit string denotes in `radix`, most significant digit first. */
  function DigitsValue(d: string, radix: nat): nat {
    if |d| == 0 then 0 else DigitsValue(d[..|d| - 1], radix) * radix + DigitValue(d[|d| - 1])
  }

  /** The number a string of decimal digits denotes. */
  function Decimal(d: string): nat {
    DigitsValue(d, 10)
  }

  /** `parseInt(s)` with no radix: skip leading white space, read an optional sign, then an
      unsigned number. Text without a single decimal digit is NaN (`None`). */
  function ParseInt(s: string): (r: Option<int>)
    ensures r.Some? ==> exists k :: 0 <= k < |s| && IsDigit(s[k])
  {
    var t := TrimStart(s);
    var r := ParseSigned(t);
    assert r.Some? ==> exists k :: 0 <= k < |s| && IsDigit(s[k]) by {
      if r.Some? {
        var k :| 0 <= k < |t| && IsDigit(t[k]);
        assert s[|s| - |t| + k] == t[k];
      }
    }
    r
  }

  /** The part of `parseInt` after the white space: an optional sign, then an unsigned number. */
  function ParseSigned(t: string): (r: Option<int>)
    ensures r.Some? ==> exists k :: 0 <= k < |t| && IsDigit(t[k])
  {
    var negative := |t| > 0 && t[0] == '-';
    var signed := |t| > 0 && (t[0] == '-' || t[0] == '+');
    var u := if signed then t[1..] else t;
    UnsignedStartsWithDigit(u);
    assert ParseUnsigned(u).Some? ==> IsDigit(t[if signed then 1 else 0]);
    match ParseUnsigned(u)
    case None => None
    case Some(m) => Some(if negative then -(m as int) else m as int)
  }

  /** The part of `parseInt` after the sign: radix 16 after a `0x`/`0X` prefix, else radix 10,
      then the longest digit prefix. */
  function ParseUnsigned(u: string): Option<nat> {
    if |u| >= 2 && u[0] == '0' && (u[1] == 'x' || u[1] == 'X') then ReadDigits(u[2..], 16)
    else ReadDigits(u, 10)
  }

  /** The longest prefix of digits in `radix`, or `None` when there is none. */
  function ReadDigits(body: string, radix: nat): Option<nat> {
    var n := DigitPrefix(body, radix);
    if n == 0 then None else Some(DigitsValue(body[..n], radix))
  }

  /** A number is read only from text that starts with a decimal digit (a hexadecimal number starts
      with `0x`). */
  lemma UnsignedStartsWithDigit(u: string)
    ensures ParseUnsigned(u).Some? ==> |u| > 0 && IsDigit(u[0])
  {
  }

  /** A string that starts with neither white space nor a sign is read unsigned. */
  lemma ParseIntUnsigned(s: string)
    requires |s| > 0 && !IsSpace(s[0]) && s[0] != '-' && s[0] != '+'
    ensures ParseInt(s) == ParseUnsigned(s)
  {
    assert TrimStart(s) == s;
  }

  lemma {:induction false} DigitPrefixOfDecimal(d: string, rest: string)
    requires AllDigits(d)
    requires rest == [] || !IsDigit(rest[0])
    ensures DigitPrefix(d + rest, 10) == |d|
  {
    if |d| > 0 {
      assert (d + rest)[1..] == d[1..] + rest;
      DigitPrefixOfDecimal(d[1..], rest);
    }
  }

  /** The unsigned part of `parseInt` reads a decimal run up to the first non-digit, unless the run
      is "0" followed by `x`. */
  lemma UnsignedReadsDigitPrefix(d: string, rest: string)
    requires |d| > 0 && AllDigits(d)
    requires rest == [] || !IsDigit(rest[0])
    requires !(d == "0" && |rest| > 0 && (rest[0] == 'x' || rest[0] == 'X'))
    ensures ParseUnsigned(d + rest) == Some(Decimal(d))
  {
    var s := d + rest;
    assert s[0] == d[0];
    assert !(|s| >= 2 && s[0] == '0' && (s[1] == 'x' || s[1] == 'X')) by {
      if |d| >= 2 {
        assert s[1] == d[1];
      } else if |rest| > 0 {
        assert s[1] == rest[0];
      }
    }
    DigitPrefixOfDecimal(d, rest);
    assert s[..|d|] == d;
  }

  /** Leading white space is skipped up to the first other character. */
  lemma {:induction false} TrimStartSkipsSpace(w: string, x: string)
    requires AllSpace(w) && (x == [] || !IsSpace(x[0]))
    ensures TrimStart(w + x) == x
  {
    if |w| == 0 {
      assert w + x == x;
    } else {
      assert (w + x)[0] == w[0];
      assert (w + x)[1..] == w[1..] + x;
      TrimStartSkipsSpace(w[1..], x);
    }
  }

  /** Leading white space does not change what `parseInt` reads. */
  lemma ParseIntSkipsSpace(w: string, x: string)
    requires AllSpace(w) && (x == [] || !IsSpace(x[0]))
    ensures ParseInt(w + x) == ParseSigned(x)
  {
    TrimStartSkipsSpace(w, x);
  }

  /** After a sign, the number that follows it, negated after `-`. */
  lemma ParseSignedSign(c: char, u: string, m: nat)
    requires (c == '+' || c == '-') && ParseUnsigned(u) == Some(m)
    ensures ParseSigned([c] + u) == Some(if c == '-' then -(m as int) else m as int)
  {
    assert ([c] + u)[0] == c && ([c] + u)[1..] == u;
  }

  /** Without a sign, the number itself. */
  lemma ParseSignedNoSign(u: string, m: nat)
    requires |u| > 0 && u[0] != '+' && u[0] != '-' && ParseUnsigned(u) == Some(m)
    ensures ParseSigned(u) == Some(m as int)
  {
  }

  /** An optional sign before an unsigned number: the number, negated after `-`. */
  lemma ParseSignedOptional(sg: string, u: string, m: nat)
    requires sg == "" || sg == "+" || sg == "-"
    requires |u| > 0 && IsDigit(u[0]) && ParseUnsigned(u) == Some(m)
    ensures ParseSigned(sg + u) == Some(if sg == "-" then -(m as int) else m as int)
  {
    if sg == "" {
      assert sg + u == u;
      ParseSignedNoSign(u, m);
    } else {
      assert sg == [sg[0]];
      ParseSignedSign(sg[0], u, m);
    }
  }

  /** An optional sign before a decimal run: the run's value, negated after `-`. */
  lemma ParseSignedRun(sg: string, d: string, rest: string)
    requires sg == "" || sg == "+" || sg == "-"
    requires |d| > 0 && AllDigits(d)
    requires rest == [] || !IsDigit(rest[0])
    requires !(d == "0" && |rest| > 0 && (rest[0] == 'x' || rest[0] == 'X'))
    ensures ParseSigned(sg + (d + rest)) == Some(if sg == "-" then -(Decimal(d) as int) else Decimal(d) as int)
  {
    UnsignedReadsDigitPrefix(d, rest);
    assert (d + rest)[0] == d[0];
    ParseSignedOptional(sg, d + rest, Decimal(d));
  }

  /** `parseInt` in general: leading white space, an optional sign, then a decimal run up to the
      first non-digit, such as `parseInt(" -350,000")` giving -350. */
  lemma ParseIntSigned(w: string, sg: string, d: string, rest: string)
    requires AllSpace(w) && (sg == "" || sg == "+" || sg == "-")
    requires |d| > 0 && AllDigits(d)
    requires rest == [] || !IsDigit(rest[0])
    requires !(d == "0" && |rest| > 0 && (rest[0] == 'x' || rest[0] == 'X'))
    ensures ParseInt(w + sg + d + rest) == Some(if sg == "-" then -(Decimal(d) as int) else Decimal(d) as int)
  {
    var x := sg + (d + rest);
    RegroupConcat(w, sg, d, rest);
    assert x[0] == if sg == "" then d[0] else sg[0];
    ParseIntSkipsSpace(w, x);
    ParseSignedRun(sg, d, rest);
  }

  /** A run of decimal digits followed by anything that is not a digit parses to the run's value:
      `parseInt("300,000")` is 300. The one exception is `0x`, which starts a hexadecimal number. */
  lemma ParseIntReadsDigitPrefix(d: string, rest: string)
    requires |d| > 0 && AllDigits(d)
    requires rest == [] || !IsDigit(rest[0])
    requires !(d == "0" && |rest| > 0 && (rest[0] == 'x' || rest[0] == 'X'))
    ensures ParseInt(d + rest) == Some(Decimal(d))
  {
    var s := d + rest;
    assert s[0] == d[0];
    ParseIntUnsigned(s);
    UnsignedReadsDigitPrefix(d, rest);
  }

  /** A non-empty all-digit string (such as a scraped price) parses to its decimal value. */
  lemma ParseIntOfDigits(d: string)
    requires |d| > 0 && AllDigits(d)
    ensures ParseInt(d) == Some(Decimal(d))
  {
    ParseIntReadsDigitPrefix(d, []);
    assert d + [] == d;
  }

  /** Text that starts with something other than white space, a sign or a digit is NaN. */
  lemma ParseIntOfWord(s: string)
    requires |s| > 0 && !IsSpace(s[0]) && s[0] != '-' && s[0] != '+' && !IsDigit(s[0])
    ensures ParseInt(s) == None
  {
    ParseIntUnsigned(s);
  }

  /** `parseInt("")` is NaN. */
  lemma ParseIntOfEmpty()
    ensures ParseInt("") == None
  {
  }

  /** `parseInt(x) || d`: NaN and zero are both falsy and give `d`. */
  function OrDefault(n: Option<int>, d: real): (r: real)
    ensures n.None? ==> r == d
    ensures n.Some? && n.value != 0 ==> r == n.value as real
    ensures n == Some(0) ==> r == d
  {
    match n
    case None => d
    case Some(k) => if k == 0 then d else k as real
  }

  /** `typeof v === 'number' ? v : parseInt(v) || d`, the coercion of every analysis field. A number
      is used as it is, even zero; a string goes through `parseInt`; every other value is NaN. */
  function Coerce(v: Value, d: real): (r: real)
    ensures v.Num? ==> r == v.n
    ensures v.Str? ==> r == OrDefault(ParseInt(v.s), d)
    ensures !v.Num? && !v.Str? ==> r == d
  {
    match v
    case Num(n) => n
    case Str(s) => OrDefault(ParseInt(s), d)
    case _ =>
      NonNumbersParseToNaN(v);
      OrDefault(ParseInt(JsString(v)), d)
  }

  /** `parseInt` of "undefined", "null", "true", "false" and "[object Object]" is NaN. */
  lemma NonNumbersParseToNaN(v: Value)
    requires !v.Num? && !v.Str?
    ensures ParseInt(JsString(v)) == None
  {
    var s := JsString(v);
    assert s[0] == 'u' || s[0] == 'n' || s[0] == 't' || s[0] == 'f' || s[0] == '[';
    ParseIntOfWord(s);
  }
}

=== FILE: location.dfy ===
/** The location heuristic of the agent route: `text.match(/(?:in|at|near)\s+([A-Za-z\s,]+)/i)?.[1]`,
    falling back to a default ("Los Angeles" for query expansion and discovery, "your area" for the
    scrape placeholder).

    The reference semantics used here is that of a backtracking matcher: the match is taken at the
    leftmost position where any match exists, and among the matches at that position the greedy
    quantifiers choose the longest `\s+` first and then the longest group. With nothing after the
    group, that is the lexicographically greatest (group start, group end) pair. There is no word
    boundary, so "What is" matches at the "at" inside "What". */
module Location {
  import opened Options
  import opened Strings

  /** The class `[A-Za-z\s,]`; with the `i` flag and no `u` flag it still admits ASCII letters only. */
  predicate InClass(c: char) {
    IsAsciiLetter(c) || IsSpace(c) || c == ','
  }

  predicate AllClass(s: string) {
    forall i :: 0 <= i < |s| ==> InClass(s[i])
  }

  /** One of the alternatives `in`, `at`, `near`, compared case-insensitively. */
  predicate IsKeyword(w: string) {
    var l := Lower(w);
    l == "in" || l == "at" || l == "near"
  }

  /** The regex matches `s[i..k]`: the keyword is `s[i..e]`, `\s+` is `s[e..j]` and the
      capture group `[A-Za-z\s,]+` is `s[j..k]`. */
  ghost predicate Matches(s: string, i: int, e: int, j: int, k: int) {
    && 0 <= i < e < j < k <= |s| && IsKeyword(s[i..e])
    && (forall m :: e <= m < j ==> IsSpace(s[m]))
    && (forall m :: j <= m < k ==> InClass(s[m]))
  }

  /** A keyword at `s[i..e]` directly followed by a white-space character and a class character. */
  ghost predicate KeywordSpaceClass(s: string, i: int, e: int) {
    0 <= i < e && e + 1 < |s| && IsKeyword(s[i..e]) && IsSpace(s[e]) && InClass(s[e + 1])
  }

  /** The match the regex engine returns: the leftmost position `i`, and at `i` the greedy choice. */
  ghost predicate Chosen(s: string, i: int, e: int, j: int, k: int) {
    && Matches(s, i, e, j, k)
    && (forall i', e', j', k' :: i' < i ==> !Matches(s, i', e', j', k'))
    && (forall e', j', k' :: Matches(s, i, e', j', k') ==> j' < j || (j' == j && k' <= k))
  }

  ghost predicate NoMatch(s: string) {
    forall i, e, j, k :: !Matches(s, i, e, j, k)
  }

  /** The capture of a successful match at one position: keyword end, group start, group end. */
  datatype Group = Group(keywordEnd: nat, start: nat, end: nat)

  /** A successful match at the leftmost position `pos`. */
  datatype Hit = Hit(pos: nat, group: Group)

  /** A keyword has two or four characters, and no two-letter keyword shares its first
      letter with `near`. */
  lemma KeywordShapes(w: string, v: string)
    requires |w| == 2 && |v| == 4 && w[0] == v[0]
    ensures !(IsKeyword(w) && IsKeyword(v))
  {
    assert Lower(w)[0] == LowerChar(w[0]);
    assert Lower(v)[0] == LowerChar(v[0]);
  }

  /** Length of the keyword at `i` (0 when there is none); the alternatives begin with different
      letters, so at most one of them matches at any position. */
  function KeywordLength(s: string, i: nat): (n: nat)
    requires i <= |s|
    ensures n == 0 || (i + n <= |s| && IsKeyword(s[i..i + n]))
    ensures forall e :: i < e <= |s| && IsKeyword(s[i..e]) ==> e == i + n
  {
    if i + 4 <= |s| then
      KeywordShapes(s[i..i + 2], s[i..i + 4]);
      if IsKeyword(s[i..i + 2]) then 2 else if IsKeyword(s[i..i + 4]) then 4 else 0
    else if i + 2 <= |s| && IsKeyword(s[i..i + 2]) then 2
    else 0
  }

  /** Number of white-space characters starting at `p`: greedy `\s+` takes them all. */
  function SpaceRun(s: string, p: nat): (n: nat)
    requires p <= |s|
    ensures p + n <= |s|
    ensures forall m :: p <= m < p + n ==> IsSpace(s[m])
    ensures p + n == |s| || !IsSpace(s[p + n])
    decreases |s| - p
  {
    if p < |s| && IsSpace(s[p]) then 1 + SpaceRun(s, p + 1) else 0
  }

  /** Number of class characters starting at `p`: greedy `[A-Za-z\s,]+` takes them all. */
  function ClassRun(s: string, p: nat): (n: nat)
    requires p <= |s|
    ensures p + n <= |s|
    ensures forall m :: p <= m < p + n ==> InClass(s[m])
    ensures p + n == |s| || !InClass(s[p + n])
    decreases |s| - p
  {
    if p < |s| && InClass(s[p]) then 1 + ClassRun(s, p + 1) else 0
  }

  /** The regex attempted at position `i` alone. When the white-space run is not followed by a class
      character, backtracking hands its last white-space character to the group. */
  function MatchAt(s: string, i: nat): (r: Option<Group>)
    requires i <= |s|
    ensures r.None? <==> forall e, j, k :: !Matches(s, i, e, j, k)
    ensures r.Some? ==> Matches(s, i, r.value.keywordEnd, r.value.start, r.value.end)
    ensures r.Some? ==> forall e, j, k :: Matches(s, i, e, j, k) ==>
                          j < r.value.start || (j == r.value.start && k <= r.value.end)
  {
    var n := KeywordLength(s, i);
    if n == 0 then
      None
    else
      var e := i + n;
      var w := SpaceRun(s, e);
      var q := e + w;
      if w == 0 then
        None
      else if q < |s| && InClass(s[q]) then
        assert Matches(s, i, e, q, q + ClassRun(s, q));
        Some(Group(e, q, q + ClassRun(s, q)))
      else if w >= 2 then
        assert Matches(s, i, e, q - 1, q);
        Some(Group(e, q - 1, q))
      else
        None
  }

  /** The first position at or after `i` where the regex matches. */
  function LeftmostFrom(s: string, i: nat): (r: Option<Hit>)
    requires i <= |s|
    ensures r.None? ==> forall p :: i <= p <= |s| ==> MatchAt(s, p).None?
    ensures r.Some? ==> i <= r.value.pos <= |s| && MatchAt(s, r.value.pos) == Some(r.value.group)
    ensures r.Some? ==> forall p :: i <= p < r.value.pos ==> MatchAt(s, p).None?
    decreases |s| - i
  {
    var here := MatchAt(s, i);
    if here.Some? then Some(Hit(i, here.value))
    else if i == |s| then None
    else
      var r := LeftmostFrom(s, i + 1);
      assert forall p :: i <= p < i + 1 ==> MatchAt(s, p).None?;
      r
  }

  /** `text.match(regex)?.[1] || default`. A successful match always captures at least one
      character, so the default is taken exactly when there is no match. */
  function ExtractLocation(text: string, default: string): (r: string)
    ensures NoMatch(text) ==> r == default
    ensures !NoMatch(text) ==> exists i, e, j, k :: Chosen(text, i, e, j, k) && r == text[j..k]
    ensures !NoMatch(text) ==> |r| > 0 && AllClass(r)
  {
    match LeftmostFrom(text, 0)
    case None =>
      assert NoMatch(text) by {
        forall i, e, j, k | 0 <= i <= |text| ensures !Matches(text, i, e, j, k) {
          assert MatchAt(text, i).None?;
        }
      }
      default
    case Some(h) =>
      var g := h.group;
      assert Matches(text, h.pos, g.keywordEnd, g.start, g.end);
      assert forall i', e', j', k' :: i' < h.pos ==> !Matches(text, i', e', j', k') by {
        forall i', e', j', k' | 0 <= i' < h.pos ensures !Matches(text, i', e', j', k') {
          assert MatchAt(text, i').None?;
        }
      }
      assert Chosen(text, h.pos, g.keywordEnd, g.start, g.end);
      var r := text[g.start..g.end];
      assert AllClass(r) by {
        assert forall m :: 0 <= m < |r| ==> r[m] == text[g.start..g.end][m];
      }
      r
  }

  /** Some match exists exactly when a keyword is followed by a white-space character and then a
      class character: the shortest decomposition is already a match. */
  lemma MatchExistsIffKeywordSpaceClass(s: string)
    ensures NoMatch(s) <==> forall i, e :: !KeywordSpaceClass(s, i, e)
  {
    forall i, e | KeywordSpaceClass(s, i, e) ensures !NoMatch(s) {
      assert s[e..e + 1][0] == s[e];
      assert s[e + 1..e + 2][0] == s[e + 1];
      assert Matches(s, i, e, e + 1, e + 2);
    }
    forall i, e, j, k | Matches(s, i, e, j, k) ensures KeywordSpaceClass(s, i, e) {
      assert s[e..j][0] == s[e];
      if j == e + 1 {
        assert s[j..k][0] == s[e + 1];
      } else {
        assert s[e..j][1] == s[e + 1];
      }
    }
  }
}

=== FILE: metrics.dfy ===
/** `calculatePropertyMetrics(price, arv, repairs)`: the profit left of the after-repair value once
    the price and the repairs are paid, the return on that investment in percent, and the market
    operating value, 3% of the after-repair value. Amounts are real numbers; the division keeps
    JavaScript's results for a zero divisor. */
module Metrics {

  /** A JavaScript number as far as the division can produce one. */
  datatype Number = Finite(value: real) | PosInfinity | NegInfinity | NaN

  /** `a / b`: the quotient for a non-zero divisor; for a zero divisor, an infinity with the sign of
      the dividend, or NaN when the dividend is zero too (the sign of a zero divisor is not kept). */
  function Divide(a: real, b: real): (r: Number)
    ensures r.Finite? <==> b != 0.0
    ensures r.Finite? ==> r.value * b == a
    ensures b == 0.0 ==> (r.PosInfinity? <==> a > 0.0) && (r.NegInfinity? <==> a < 0.0) && (r.NaN? <==> a == 0.0)
  {
    if b != 0.0 then Finite(a / b)
    else if a > 0.0 then PosInfinity
    else if a < 0.0 then NegInfinity
    else NaN
  }

  /** `n * k` for a positive factor `k`. */
  function ScaleBy(n: Number, k: real): (r: Number)
    requires k > 0.0
    ensures r.Finite? <==> n.Finite?
    ensures n.Finite? ==> r.value == n.value * k
    ensures !n.Finite? ==> r == n
  {
    match n
    case Finite(v) => Finite(v * k)
    case _ => n
  }

  datatype PropertyMetrics = PropertyMetrics(profit: real, roi: Number, mov: real)

  function CalculatePropertyMetrics(price: real, arv: real, repairs: real): (m: PropertyMetrics)
    ensures m.profit + price + repairs == arv
    ensures price + repairs != 0.0 ==> m.roi.Finite? && m.roi.value * (price + repairs) == 100.0 * m.profit
    ensures price + repairs == 0.0 ==> && (m.roi.PosInfinity? <==> arv > 0.0)
                                       && (m.roi.NegInfinity? <==> arv < 0.0)
                                       && (m.roi.NaN? <==> arv == 0.0)
    ensures 100.0 * m.mov == 3.0 * arv
  {
    var totalInvestment := price + repairs;
    var profit := arv - totalInvestment;
    var ratio := Divide(profit, totalInvestment);
    var roi := ScaleBy(ratio, 100.0);
    PropertyMetrics(profit, roi, arv * 0.03)
  }

  /** For a positive investment the return has the sign of the profit, and is zero exactly at
      break-even, when the after-repair value equals price plus repairs. */
  lemma RoiSign(price: real, arv: real, repairs: real)
    requires price + repairs > 0.0
    ensures var roi := CalculatePropertyMetrics(price, arv, repairs).roi.value;
            && (roi > 0.0 <==> arv > price + repairs)
            && (roi < 0.0 <==> arv < price + repairs)
            && (roi == 0.0 <==> arv == price + repairs)
  {
    var m := CalculatePropertyMetrics(price, arv, repairs);
    var t := price + repairs;
    assert m.roi.value * t == 100.0 * m.profit;
    if m.roi.value > 0.0 {
      assert m.roi.value * t > 0.0;
    } else if m.roi.value < 0.0 {
      assert m.roi.value * t < 0.0;
    }
  }

  /** The market operating value depends on the after-repair value alone. */
  lemma MovIndependent(price1: real, repairs1: real, price2: real, repairs2: real, arv: real)
    ensures CalculatePropertyMetrics(price1, arv, repairs1).mov == CalculatePropertyMetrics(price2, arv, repairs2).mov
  {
  }

  /** The profit does not deduct the market operating value: raising the after-repair value by an
      amount raises the profit by that same amount. */
  lemma ProfitExcludesMov(price: real, arv: real, repairs: real, extra: real)
    ensures CalculatePropertyMetrics(price, arv + extra, repairs).profit
            == CalculatePropertyMetrics(price, arv, repairs).profit + extra
  {
  }
}

=== FILE: options.dfy ===
/** "Nothing" where the route can end up with no value: a regex that does not match, `parseInt`
    reading NaN, a URL that does not parse. */
module Options {

  datatype Option<+T> = None | Some(value: T)
}

=== FILE: ranking.dfy ===
/** The final selection: the analysed listings with a profit of at least $15,000, sorted by profit,
    highest first. `Array.prototype.sort` is stable (ECMA-262, 2019 edition, section 22.1.3.27),
    so listings with equal profit keep the order analysis gave them. */
module Ranking {
  import opened Analysis

  /** The least profit a listing must promise to be reported. */
  const MinProfit: real := 15000.0

  predicate Sorted(s: seq<Analysed>) {
    forall i, j :: 0 <= i < j < |s| ==> s[i].profit >= s[j].profit
  }

  /** The listings of `s` whose profit is `v`, in their order in `s`. */
  function WithProfit(s: seq<Analysed>, v: real): seq<Analysed> {
    if |s| == 0 then [] else (if s[0].profit == v then [s[0]] else []) + WithProfit(s[1..], v)
  }

  lemma {:induction false} WithProfitConcat(a: seq<Analysed>, b: seq<Analysed>, v: real)
    ensures WithProfit(a + b, v) == WithProfit(a, v) + WithProfit(b, v)
  {
    if |a| == 0 {
      assert a + b == b;
    } else {
      assert (a + b)[0] == a[0];
      assert (a + b)[1..] == a[1..] + b;
      WithProfitConcat(a[1..], b, v);
      var h := if a[0].profit == v then [a[0]] else [];
      assert WithProfit(a + b, v) == h + (WithProfit(a[1..], v) + WithProfit(b, v));
    }
  }

  lemma {:induction false} WithProfitAbsent(s: seq<Analysed>, v: real)
    requires forall i :: 0 <= i < |s| ==> s[i].profit != v
    ensures WithProfit(s, v) == []
  {
    if |s| > 0 {
      WithProfitAbsent(s[1..], v);
    }
  }

  /** `filter(p => (p.calculatedProfit || 0) >= 15000)`: the listings that clear the bar, in order. */
  function Profitable(s: seq<Analysed>): (r: seq<Analysed>)
    ensures |r| <= |s|
    ensures forall i :: 0 <= i < |r| ==> r[i].profit >= MinProfit && r[i] in s
    ensures forall i :: 0 <= i < |s| && s[i].profit >= MinProfit ==> s[i] in r
  {
    if |s| == 0 then []
    else
      var rest := Profitable(s[1..]);
      assert forall i :: 1 <= i < |s| ==> s[i] == s[1..][i - 1];
      if s[0].profit >= MinProfit then [s[0]] + rest else rest
  }

  /** The filter keeps, for every profit that clears the bar, all its listings in their order, and
      none for any other profit. */
  lemma {:induction false} ProfitableKeepsOrder(s: seq<Analysed>, v: real)
    ensures WithProfit(Profitable(s), v) == if v >= MinProfit then WithProfit(s, v) else []
  {
    if |s| > 0 {
      ProfitableKeepsOrder(s[1..], v);
      if s[0].profit >= MinProfit {
        WithProfitConcat([s[0]], Profitable(s[1..]), v);
      }
    }
  }

  /** One step of a stable insertion sort: `x` goes after every listing whose profit is at least
      its own. */
  function Insert(s: seq<Analysed>, x: Analysed): (r: seq<Analysed>)
    ensures |r| == |s| + 1
    ensures multiset(r) == multiset(s) + multiset{x}
  {
    if |s| == 0 then [x]
    else if s[0].profit >= x.profit then
      assert s == [s[0]] + s[1..];
      [s[0]] + Insert(s[1..], x)
    else [x] + s
  }

  /** Inserting into a sorted list keeps it sorted. */
  lemma {:induction false} InsertKeepsSorted(s: seq<Analysed>, x: Analysed)
    requires Sorted(s)
    ensures Sorted(Insert(s, x))
  {
    if |s| > 0 && s[0].profit >= x.profit {
      var rest := Insert(s[1..], x);
      SortedTail(s);
      InsertKeepsSorted(s[1..], x);
      HeadBoundsInsert(s, x);
      SortedCons(s[0], rest);
    }
  }

  lemma SortedCons(h: Analysed, s: seq<Analysed>)
    requires Sorted(s) && forall i :: 0 <= i < |s| ==> h.profit >= s[i].profit
    ensures Sorted([h] + s)
  {
    var r := [h] + s;
    assert forall i :: 1 <= i < |r| ==> r[i] == s[i - 1];
  }

  /** A head whose profit is at least that of `x` and of every listing behind it is at least that
      of every listing of the tail with `x` inserted. */
  lemma HeadBoundsInsert(s: seq<Analysed>, x: Analysed)
    requires Sorted(s) && |s| > 0 && s[0].profit >= x.profit
    ensures forall i :: 0 <= i < |Insert(s[1..], x)| ==> s[0].profit >= Insert(s[1..], x)[i].profit
  {
    var rest := Insert(s[1..], x);
    forall i | 0 <= i < |rest| ensures s[0].profit >= rest[i].profit {
      assert rest[i] in multiset(rest);
      if rest[i] != x {
        assert rest[i] in multiset(s[1..]);
        var j :| 0 <= j < |s[1..]| && s[1..][j] == rest[i];
        assert s[j + 1] == rest[i];
      }
    }
  }

  lemma SortedTail(s: seq<Analysed>)
    requires Sorted(s) && |s| > 0
    ensures Sorted(s[1..])
  {
    assert forall i :: 0 <= i < |s| - 1 ==> s[1..][i] == s[i + 1];
  }

  /** Insertion behind the head: the head's contribution comes first on both sides. */
  lemma InsertBehindHead(s: seq<Analysed>, x: Analysed, v: real, t: seq<Analysed>)
    requires |s| > 0 && s[0].profit >= x.profit
    requires WithProfit(Insert(s[1..], x), v) == WithProfit(s[1..], v) + t
    ensures WithProfit(Insert(s, x), v) == WithProfit(s, v) + t
  {
    var h := if s[0].profit == v then [s[0]] else [];
    var i := Insert(s[1..], x);
    var j := [s[0]] + i;
    assert Insert(s, x) == j;
    assert j[0] == s[0] && j[1..] == i;
    assert WithProfit(j, v) == h + WithProfit(i, v);
    assert WithProfit(s, v) == h + WithProfit(s[1..], v);
  }

  /** Insertion in front of a sorted list whose head has a lower profit. */
  lemma InsertInFront(s: seq<Analysed>, x: Analysed, v: real)
    requires Sorted(s) && (|s| == 0 || s[0].profit < x.profit)
    ensures WithProfit(Insert(s, x), v) == WithProfit(s, v) + (if x.profit == v then [x] else [])
  {
    assert Insert(s, x) == [x] + s;
    WithProfitConcat([x], s, v);
    assert [x][1..] == [];
    if x.profit == v {
      forall i | 0 <= i < |s| ensures s[i].profit != v {
        assert s[0].profit >= s[i].profit;
      }
      WithProfitAbsent(s, v);
    }
  }

  /** Inserting into a sorted list puts `x` after the listings of equal profit. */
  lemma {:induction false} InsertKeepsTies(s: seq<Analysed>, x: Analysed, v: real)
    requires Sorted(s)
    ensures WithProfit(Insert(s, x), v) == WithProfit(s, v) + (if x.profit == v then [x] else [])
  {
    if |s| > 0 && s[0].profit >= x.profit {
      SortedTail(s);
      InsertKeepsTies(s[1..], x, v);
      InsertBehindHead(s, x, v, if x.profit == v then [x] else []);
    } else {
      InsertInFront(s, x, v);
    }
  }

  /** `sort((a, b) => b.calculatedProfit - a.calculatedProfit)`: a permutation of `s`, highest
      profit first. */
  function Sort(s: seq<Analysed>): (r: seq<Analysed>)
    ensures Sorted(r)
    ensures multiset(r) == multiset(s)
  {
    if |s| == 0 then []
    else
      var front := s[..|s| - 1];
      assert front + [s[|s| - 1]] == s;
      InsertKeepsSorted(Sort(front), s[|s| - 1]);
      Insert(Sort(front), s[|s| - 1])
  }

  /** The sort is stable: listings of equal profit appear in the order they had. */
  lemma {:induction false} SortIsStable(s: seq<Analysed>, v: real)
    ensures WithProfit(Sort(s), v) == WithProfit(s, v)
  {
    if |s| > 0 {
      var front := s[..|s| - 1];
      var last := s[|s| - 1];
      assert front + [last] == s;
      SortIsStable(front, v);
      InsertKeepsTies(Sort(front), last, v);
      assert Sort(s) == Insert(Sort(front), last);
      WithProfitConcat(front, [last], v);
      assert [last][1..] == [];
    }
  }

  lemma SameMembers(a: seq<Analysed>, b: seq<Analysed>)
    requires multiset(a) == multiset(b)
    ensures forall i :: 0 <= i < |a| ==> a[i] in b
  {
    forall i | 0 <= i < |a| ensures a[i] in b {
      assert a[i] in multiset(a);
    }
  }

  /** `profitableProperties`. */
  function Rank(s: seq<Analysed>): (r: seq<Analysed>)
    ensures Sorted(r)
    ensures |r| <= |s|
    ensures forall i :: 0 <= i < |r| ==> r[i].profit >= MinProfit && r[i] in s
    ensures forall i :: 0 <= i < |s| && s[i].profit >= MinProfit ==> s[i] in r
    ensures multiset(r) == multiset(Profitable(s))
  {
    var kept := Profitable(s);
    var r := Sort(kept);
    SameMembers(r, kept);
    SameMembers(kept, r);
    assert |r| == |multiset(r)| == |multiset(kept)| == |kept|;
    r
  }

  /** The reported listings of one profit are exactly the analysed listings of that profit, in
      their analysed order, when it clears the bar, and there are none otherwise. */
  lemma RankKeepsTies(s: seq<Analysed>, v: real)
    ensures WithProfit(Rank(s), v) == if v >= MinProfit then WithProfit(s, v) else []
  {
    SortIsStable(Profitable(s), v);
    ProfitableKeepsOrder(s, v);
  }

  /** A listing valued by the fixed estimate is reported exactly when its price is at least
      $625,000. */
  lemma EstimateClearsBar(l: Extraction.Listing)
    ensures Estimate(l).profit >= MinProfit <==> PurchasePrice(l.price) >= 625000.0
  {
  }
}

=== FILE: sequences.dfy ===
/** Prefixes of sequences: `substring(0, n)` and `slice(0, n)`, and the facts about prefixes that the
    folds over arrays use. */
module Sequences {

  /** Four pieces concatenated left to right, regrouped from the right. */
  lemma RegroupConcat<T>(a: seq<T>, b: seq<T>, c: seq<T>, e: seq<T>)
    ensures a + b + c + e == a + (b + (c + e))
  {
  }

  /** `s.substring(0, n)` and `a.slice(0, n)`: the first `n` elements, or all of `s` when it is
      shorter. */
  function Take<T>(s: seq<T>, n: nat): (r: seq<T>)
    ensures |r| == if |s| <= n then |s| else n
    ensures r == s[..|r|]
  {
    if |s| <= n then s else s[..n]
  }

  lemma TakeCons<T>(x: T, s: seq<T>, n: nat)
    requires n > 0
    ensures Take([x] + s, n) == [x] + Take(s, n - 1)
  {
    if |s| > n - 1 {
      assert ([x] + s)[..n] == [x] + s[..n - 1];
    }
  }

  /** A prefix of a prefix is a prefix. */
  lemma PrefixOfPrefix<T>(r: seq<T>, found: seq<T>, n: nat)
    requires n <= |found| <= |r| && r[..|found|] == found
    ensures r[..n] == found[..n]
  {
    assert forall i :: 0 <= i < n ==> r[i] == found[i];
  }

  /** Extending `b`, which extends `a`, still extends `a`, and keeps `b`'s own entries. */
  lemma PrefixTrans<T>(a: seq<T>, b: seq<T>, c: seq<T>)
    requires |a| <= |b| <= |c| && b[..|a|] == a && c[..|b|] == b
    ensures c[..|a|] == a
    ensures forall i :: 0 <= i < |b| ==> c[i] == b[i]
  {
    assert forall i :: 0 <= i < |b| ==> c[i] == c[..|b|][i];
    assert forall i :: 0 <= i < |a| ==> c[i] == a[i];
  }
}

=== FILE: strings.dfy ===
/** Character classes and the few `String.prototype` operations the agent route relies on:
    `trim`, `includes`, `startsWith`, `toLowerCase` (ASCII letters only) and the digit filter
    `replace(/[^0-9]/g, '')`. */
module Strings {

  /** The code points ECMAScript counts as WhiteSpace or LineTerminator: what the regex
      escape `\s`, `String.prototype.trim` and `parseInt`'s leading-space skip all use. */
  predicate IsSpace(c: char) {
    || c == '\t' || c == '\n' || c == '\U{000B}' || c == '\U{000C}' || c == '\r' || c == ' '
    || c == '\U{00A0}' || c == '\U{1680}' || ('\U{2000}' <= c <= '\U{200A}')
    || c == '\U{2028}' || c == '\U{2029}' || c == '\U{202F}' || c == '\U{205F}'
    || c == '\U{3000}' || c == '\U{FEFF}'
  }

  predicate IsAsciiLetter(c: char) {
    ('A' <= c <= 'Z') || ('a' <= c <= 'z')
  }

  predicate IsDigit(c: char) {
    '0' <= c <= '9'
  }

  predicate AllDigits(s: string) {
    forall i :: 0 <= i < |s| ==> IsDigit(s[i])
  }

  predicate AllSpace(s: string) {
    forall i :: 0 <= i < |s| ==> IsSpace(s[i])
  }

  /** `toLowerCase` restricted to ASCII: upper-case ASCII letters move down, all else stays. */
  function LowerChar(c: char): char {
    if 'A' <= c <= 'Z' then (c as int + 32) as char else c
  }

  function Lower(s: string): (r: string)
    ensures |r| == |s|
    ensures forall i :: 0 <= i < |s| ==> r[i] == LowerChar(s[i])
  {
    seq(|s|, i requires 0 <= i < |s| => LowerChar(s[i]))
  }

  /** Two characters that are equal once upper-case ASCII letters are lowered: the same character,
      or the two cases of one ASCII letter. */
  predicate SameIgnoringCase(c: char, d: char) {
    || c == d
    || ('A' <= c <= 'Z' && d as int == c as int + 32)
    || ('A' <= d <= 'Z' && c as int == d as int + 32)
  }

  /** `a.toLowerCase() === b.toLowerCase()` holds exactly when the strings have the same length and
      agree, position by position, up to the case of ASCII letters. */
  lemma LowerEqual(a: string, b: string)
    ensures Lower(a) == Lower(b) <==> |a| == |b| && forall i :: 0 <= i < |a| ==> SameIgnoringCase(a[i], b[i])
  {
  }

  /** `s.replace(/[^0-9]/g, '')`: the decimal digits of `s`, in order. */
  function DigitsOnly(s: string): (r: string)
    ensures AllDigits(r)
    ensures |r| <= |s|
    ensures forall c :: c in r <==> c in s && IsDigit(c)
  {
    if |s| == 0 then []
    else (if IsDigit(s[0]) then [s[0]] else []) + DigitsOnly(s[1..])
  }

  /** The filter of one character: the character itself when it is a digit, else nothing. */
  lemma DigitsOnlyChar(c: char)
    ensures DigitsOnly([c]) == if IsDigit(c) then [c] else []
  {
  }

  /** The filter works character by character: filtering two pieces and joining the results is
      filtering the joined string. With `DigitsOnlyChar` this fixes the result completely: the
      digits of the input, in their order, each as often as it occurs. */
  lemma {:induction false} DigitsOnlyConcat(a: string, b: string)
    ensures DigitsOnly(a + b) == DigitsOnly(a) + DigitsOnly(b)
  {
    if |a| == 0 {
      assert a + b == b;
    } else {
      assert (a + b)[0] == a[0];
      assert (a + b)[1..] == a[1..] + b;
      DigitsOnlyConcat(a[1..], b);
    }
  }

  /** A string that is already all digits passes the filter unchanged. */
  lemma {:induction false} DigitsOnlyOfDigits(s: string)
    requires AllDigits(s)
    ensures DigitsOnly(s) == s
  {
    if |s| > 0 {
      DigitsOnlyOfDigits(s[1..]);
    }
  }

  /** Filtering twice is filtering once. */
  lemma DigitsOnlyIdempotent(s: string)
    ensures DigitsOnly(DigitsOnly(s)) == DigitsOnly(s)
  {
    DigitsOnlyOfDigits(DigitsOnly(s));
  }

  /** Drops the leading white space of `s`. */
  function TrimStart(s: string): (r: string)
    ensures |r| <= |s| && r == s[|s| - |r|..]
    ensures AllSpace(s[..|s| - |r|])
    ensures r == [] || !IsSpace(r[0])
  {
    if |s| > 0 && IsSpace(s[0]) then TrimStart(s[1..]) else s
  }

  /** Drops the trailing white space of `s`. */
  function TrimEnd(s: string): (r: string)
    ensures |r| <= |s| && r == s[..|r|]
    ensures AllSpace(s[|r|..])
    ensures r == [] || !IsSpace(r[|r| - 1])
  {
    if |s| > 0 && IsSpace(s[|s| - 1]) then
      var r := TrimEnd(s[..|s| - 1]);
      assert s[|r|..] == s[..|s| - 1][|r|..] + [s[|s| - 1]];
      r
    else s
  }

  /** `r` is the part of `s` from index `a` on that leaves only white space on either side. */
  ghost predicate MiddleAt(s: string, r: string, a: int) {
    0 <= a && a + |r| <= |s| && r == s[a..a + |r|] && AllSpace(s[..a]) && AllSpace(s[a + |r|..])
  }

  /** Cutting white space off the front and then off the back leaves a middle slice. */
  lemma MiddleOfCuts(s: string, t: string, r: string, a: nat)
    requires a <= |s| && t == s[a..] && AllSpace(s[..a])
    requires |r| <= |t| && r == t[..|r|] && AllSpace(t[|r|..])
    ensures MiddleAt(s, r, a)
  {
    assert s[a + |r|..] == t[|r|..];
  }

  lemma TrimsLeaveMiddle(s: string)
    ensures MiddleAt(s, TrimEnd(TrimStart(s)), |s| - |TrimStart(s)|)
  {
    var t := TrimStart(s);
    MiddleOfCuts(s, t, TrimEnd(t), |s| - |t|);
  }

  /** `String.prototype.trim`: the input with its white space cut off at both ends. */
  function Trim(s: string): (r: string)
    ensures r == [] <==> AllSpace(s)
    ensures r == [] || (!IsSpace(r[0]) && !IsSpace(r[|r| - 1]))
    ensures |r| <= |s|
    ensures exists a :: MiddleAt(s, r, a)
  {
    var t := TrimStart(s);
    var r := TrimEnd(t);
    TrimsLeaveMiddle(s);
    assert r == [] ==> t == [];
    assert AllSpace(s) ==> t == [];
    if r == [] then
      assert s == s[..|s| - |t|];
      r
    else
      assert r[0] == t[0];
      r
  }

  /** `sub` occurs in `s` at index `i`. */
  ghost predicate OccursAt(s: string, sub: string, i: int) {
    0 <= i && i + |sub| <= |s| && s[i..i + |sub|] == sub
  }

  /** `s.includes(sub)`. */
  function Contains(s: string, sub: string): (r: bool)
    ensures r <==> exists i :: OccursAt(s, sub, i)
    decreases |s|
  {
    if |sub| > |s| then
      assert forall i :: !OccursAt(s, sub, i);
      false
    else if s[..|sub|] == sub then
      assert OccursAt(s, sub, 0);
      true
    else
      var r := Contains(s[1..], sub);
      assert r ==> exists i :: OccursAt(s, sub, i) by {
        if r {
          var i :| OccursAt(s[1..], sub, i);
          assert s[1..][i..i + |sub|] == s[i + 1..i + 1 + |sub|];
          assert OccursAt(s, sub, i + 1);
        }
      }
      assert (exists i :: OccursAt(s, sub, i)) ==> r by {
        if exists i :: OccursAt(s, sub, i) {
          var i :| OccursAt(s, sub, i);
          assert i != 0;
          assert s[1..][i - 1..i - 1 + |sub|] == s[i..i + |sub|];
          assert OccursAt(s[1..], sub, i - 1);
        }
      }
      r
  }

  /** `s.startsWith(p)`. */
  predicate StartsWith(s: string, p: string) {
    |p| <= |s| && s[..|p|] == p
  }
}

=== FILE: uri_encoding.dfy ===
/** `encodeURIComponent`, which the discovery fallback applies to the extracted location before
    splicing it into the zillow, realtor and redfin search URLs. Every character outside the
    unreserved set is written as the UTF-8 bytes of its code point, each as `%` and two upper-case
    hexadecimal digits. Dafny characters are Unicode scalar values, so the lone-surrogate error of
    the JavaScript function cannot arise. */
module UriEncoding {
  import opened Strings

  /** The characters `encodeURIComponent` leaves alone: ASCII letters, digits and `-_.!~*'()`. */
  predicate IsUnreserved(c: char) {
    IsAsciiLetter(c) || IsDigit(c) || c == '-' || c == '_' || c == '.' || c == '!'
    || c == '~' || c == '*' || c == '\'' || c == '(' || c == ')'
  }

  predicate IsUpperHex(c: char) {
    IsDigit(c) || ('A' <= c <= 'F')
  }

  /** The UTF-8 encoding of a code point. */
  function Utf8(c: char): (bytes: seq<nat>)
    ensures 1 <= |bytes| <= 4
    ensures forall i :: 0 <= i < |bytes| ==> bytes[i] < 256
  {
    var n := c as int;
    if n < 0x80 then [n]
    else if n < 0x800 then [0xC0 + n / 64, 0x80 + n % 64]
    else if n < 0x10000 then [0xE0 + n / 4096, 0x80 + (n / 64) % 64, 0x80 + n % 64]
    else [0xF0 + n / 262144, 0x80 + (n / 4096) % 64, 0x80 + (n / 64) % 64, 0x80 + n % 64]
  }

  /** Reads a code point back from its UTF-8 bytes. */
  function Utf8Value(bytes: seq<int>): int {
    if |bytes| == 1 then bytes[0]
    else if |bytes| == 2 then (bytes[0] - 0xC0) * 64 + (bytes[1] - 0x80)
    else if |bytes| == 3 then (bytes[0] - 0xE0) * 4096 + (bytes[1] - 0x80) * 64 + (bytes[2] - 0x80)
    else if |bytes| == 4 then
      (bytes[0] - 0xF0) * 262144 + (bytes[1] - 0x80) * 4096 + (bytes[2] - 0x80) * 64 + (bytes[3] - 0x80)
    else 0
  }

  /** The UTF-8 encoding loses nothing: the bytes determine the code point. */
  lemma Utf8RoundTrip(c: char)
    ensures Utf8Value(Utf8(c)) == c as int
  {
    var n := c as int;
    if n >= 0x10000 {
      assert (n / 4096) % 64 == n / 4096 - (n / 262144) * 64;
      assert (n / 64) % 64 == n / 64 - (n / 4096) * 64;
    } else if n >= 0x800 {
      assert (n / 64) % 64 == n / 64 - (n / 4096) * 64;
    }
  }

  function HexDigit(d: nat): (c: char)
    requires d < 16
    ensures IsUpperHex(c)
    ensures HexValue(c) == d
  {
    if d < 10 then ('0' as int + d) as char else ('A' as int + d - 10) as char
  }

  function HexValue(c: char): nat {
    if IsDigit(c) then c as int - '0' as int
    else if 'A' <= c <= 'F' then c as int - 'A' as int + 10
    else 0
  }

  /** `%XY` for one byte. */
  function PercentByte(b: nat): (r: string)
    requires b < 256
    ensures |r| == 3 && r[0] == '%' && IsUpperHex(r[1]) && IsUpperHex(r[2])
    ensures HexValue(r[1]) * 16 + HexValue(r[2]) == b
  {
    ['%', HexDigit(b / 16), HexDigit(b % 16)]
  }

  function PercentBytes(bytes: seq<nat>): (r: string)
    requires forall i :: 0 <= i < |bytes| ==> bytes[i] < 256
    ensures |r| == 3 * |bytes|
    ensures forall i :: 0 <= i < |bytes| ==> r[3 * i..3 * i + 3] == PercentByte(bytes[i])
    ensures forall i :: 0 <= i < |r| ==> r[i] == '%' || IsUpperHex(r[i])
  {
    if |bytes| == 0 then []
    else
      var rest := PercentBytes(bytes[1..]);
      var r := PercentByte(bytes[0]) + rest;
      assert forall i :: 1 <= i < |bytes| ==> r[3 * i..3 * i + 3] == rest[3 * (i - 1)..3 * (i - 1) + 3];
      r
  }

  /** The encoding of one character. */
  function EncodeChar(c: char): (r: string)
    ensures IsUnreserved(c) ==> r == [c]
    ensures !IsUnreserved(c) ==> |r| == 3 * |Utf8(c)|
    ensures Encoded(r)
  {
    if IsUnreserved(c) then [c]
    else
      var bytes := Utf8(c);
      PercentBytes(bytes)
  }

  /** Reads the bytes back out of a run of `%XY` triples. */
  function UnpercentBytes(r: string): seq<nat>
    decreases |r|
  {
    if |r| < 3 then [] else [HexValue(r[1]) * 16 + HexValue(r[2])] + UnpercentBytes(r[3..])
  }

  lemma {:induction false} UnpercentPercentBytes(bytes: seq<nat>)
    requires forall i :: 0 <= i < |bytes| ==> bytes[i] < 256
    ensures UnpercentBytes(PercentBytes(bytes)) == bytes
  {
    if |bytes| > 0 {
      var r := PercentBytes(bytes);
      assert r[3..] == PercentBytes(bytes[1..]);
      UnpercentPercentBytes(bytes[1..]);
    }
  }

  /** Decoding one encoded character. */
  function DecodeChar(r: string): int {
    if |r| == 1 then r[0] as int else Utf8Value(UnpercentBytes(r))
  }

  /** No two characters share an encoding: decoding an encoded character gives it back. */
  lemma EncodeCharRoundTrip(c: char)
    ensures DecodeChar(EncodeChar(c)) == c as int
  {
    if !IsUnreserved(c) {
      UnpercentPercentBytes(Utf8(c));
      Utf8RoundTrip(c);
    }
  }

  /** Only unreserved characters, `%` and upper-case hexadecimal digits. */
  predicate Encoded(r: string) {
    forall i :: 0 <= i < |r| ==> IsUnreserved(r[i]) || r[i] == '%' || IsUpperHex(r[i])
  }

  lemma EncodedConcat(a: string, b: string)
    requires Encoded(a) && Encoded(b)
    ensures Encoded(a + b)
  {
    forall i | 0 <= i < |a + b| ensures IsUnreserved((a + b)[i]) || (a + b)[i] == '%' || IsUpperHex((a + b)[i]) {
      if i >= |a| {
        assert (a + b)[i] == b[i - |a|];
      }
    }
  }

  /** `encodeURIComponent(s)`. */
  function EncodeURIComponent(s: string): (r: string)
    ensures Encoded(r)
    ensures |r| >= |s|
  {
    if |s| == 0 then []
    else
      var head := EncodeChar(s[0]);
      var rest := EncodeURIComponent(s[1..]);
      EncodedConcat(head, rest);
      head + rest
  }

  /** Encoding distributes over concatenation. */
  lemma {:induction false} EncodeConcat(a: string, b: string)
    ensures EncodeURIComponent(a + b) == EncodeURIComponent(a) + EncodeURIComponent(b)
  {
    if |a| > 0 {
      assert (a + b)[0] == a[0];
      assert (a + b)[1..] == a[1..] + b;
      EncodeConcat(a[1..], b);
    } else {
      assert a + b == b;
    }
  }

  /** A string of unreserved characters is its own encoding. */
  lemma {:induction false} EncodeUnreserved(s: string)
    requires forall i :: 0 <= i < |s| ==> IsUnreserved(s[i])
    ensures EncodeURIComponent(s) == s
  {
    if |s| > 0 {
      EncodeUnreserved(s[1..]);
    }
  }
}
